=== FILE: README.md ===
# Trace Compass core, modelled in Dafny

This project models the sequential core of the Trace Compass trace-analysis
tooling as pure functions over immutable values, and proves what that core
promises:

- **the interval store** (`JDBMTimeRangeStore`): an append-only collection of
  time ranges with an element counter, a durability commit every 10,000
  insertions, lookup by index, and the "which elements cover time t" query;
- **system calls** (`SystemCall`, `InitialInfo`): an interval with a name,
  arguments and a return value, whose duration is fixed at construction;
- **the system-call latency builder** (`LatencyAnalysisRequest`): a step
  function over kernel events that pairs each syscall exit with the entry open
  on the same thread and appends the finished call to the store, classified by
  the LTTng 2.6 event-name prefixes (`Lttng26EventLayout`);
- **the sequence-diagram loader** (`TmfUml2SDSyncLoader`), without its UI:
  - the index pass that records one checkpoint per 10,000 send/receive events;
  - the page-navigation state machine and `getPage`;
  - message numbering and filtering in `fillCurrentPage`;
  - the send/receive event recogniser;
- **the trace event value** (`TmfEvent`): its constructors, copy constructor,
  setters, `equals` and `hashCode`;
- **the test parser stub** (`TmfEventParserStub`): its table of ten event
  types and its record decoder.

One Dafny module per concern:

| file | module | models |
|---|---|---|
| `java_lang.dfy` | `JavaLang` | `null`, `int`/`long` wrap-around, decimal rendering, `Integer.parseInt`, `String.hashCode`, `startsWith`, `contains`, `String.join` |
| `time_range_store.dfy` | `TimeRangeStore` | `JDBMTimeRangeStore` |
| `system_call.dfy` | `SystemCalls` | `SystemCall`, `SystemCall.InitialInfo` |
| `event_layout.dfy` | `EventLayout` | `Lttng26EventLayout` |
| `latency_analysis.dfy` | `LatencyAnalysis` | `LatencyAnalysis.LatencyAnalysisRequest` |
| `tmf_event.dfy` | `TmfEvents` | `TmfEvent` |
| `event_parser_stub.dfy` | `EventParserStub` | `TmfEventParserStub` |
| `sd_events.dfy` | `SdEvents` | the recogniser and the two filters of `TmfUml2SDSyncLoader` |
| `sd_indexing.dfy` | `SdIndexing` | the index request of `TmfUml2SDSyncLoader` |
| `sd_paging.dfy` | `SdPaging` | the paging operations of `TmfUml2SDSyncLoader` |
| `sd_page_fill.dfy` | `SdPageFill` | `fillCurrentPage` of `TmfUml2SDSyncLoader` |

**Abstractions**
- Mutable objects become values, and each mutator returns the new value.
- A Java `null` is `Option.None`.
- An exception is a constructor of the operation's result type, for example
  `Failed(NumberFormat)`.
- Java's 32- and 64-bit overflow is written out (`Wrap32`, `Wrap64`) wherever
  the source narrows or subtracts.
- A Java `String` is a Dafny `string`, a sequence of Unicode characters.
  `String.hashCode` goes through the string's UTF-16 code units
  (`JavaLang.Utf16Units`), as Java stores them.

**Parameters**
- The JDBM primary map is a sequence indexed by insertion position. The
  library assigns the record ids, so position `i` stands for the id of the
  `i`-th appended value.
- The two secondary indexes are given as key-extractor parameters.
- The parser stub's byte stream is a sequence of decoded values: a `long`, a
  UTF string or an `int`.
- A few things are parameters because their code is not part of this model:
  - the thread-id resolution;
  - the `Messages` keywords of the recogniser;
  - the filter criteria's `matches`;
  - the component types' `hashCode`.

## Model

| member | source | states |
|---|---|---|
| `TimeRangeStore.NewStore` | org.eclipse.tracecompass.analysis.os.linux.core/src/org/eclipse/tracecompass/analysis/os/linux/core/timerangestore/JDBMTimeRangeStore.java:28-56 | a new store is consistent and reports zero elements and zero commits |
| `TimeRangeStore.AddValue` | org.eclipse.tracecompass.analysis.os.linux.core/src/org/eclipse/tracecompass/analysis/os/linux/core/timerangestore/JDBMTimeRangeStore.java:58-68 | `addValue` appends the value at the end, raises the count by exactly one, and commits exactly when the new count is a multiple of 10000; consistency of counter and commits is kept |
| `TimeRangeStore.AppendAllFromEmpty` | org.eclipse.tracecompass.analysis.os.linux.core/src/org/eclipse/tracecompass/analysis/os/linux/core/timerangestore/JDBMTimeRangeStore.java:58-78 | after n appends to a new store it holds the n values in order, reports n elements and has committed n / 10000 times |
| `TimeRangeStore.AddValueKeepsIndices` | org.eclipse.tracecompass.analysis.os.linux.core/src/org/eclipse/tracecompass/analysis/os/linux/core/timerangestore/JDBMTimeRangeStore.java:80-83 | an append makes the new value reachable at the old count and leaves every other index's lookup unchanged |
| `TimeRangeStore.ElementAtIndexAfterAppends` | org.eclipse.tracecompass.analysis.os.linux.core/src/org/eclipse/tracecompass/analysis/os/linux/core/timerangestore/JDBMTimeRangeStore.java:80-83 | `getElementAtIndex(i)` returns the i-th appended value, and `null` for any index that was never assigned |
| `TimeRangeStore.Iterator` | org.eclipse.tracecompass.analysis.os.linux.core/src/org/eclipse/tracecompass/analysis/os/linux/core/timerangestore/JDBMTimeRangeStore.java:70-73 | iteration yields one value per stored element, the value found at that index |
| `TimeRangeStore.Insert` | org.eclipse.tracecompass.analysis.os.linux.core/src/org/eclipse/tracecompass/analysis/os/linux/core/timerangestore/JDBMTimeRangeStore.java:102-104 | adding a key to a `TreeSet` keeps it ascending and duplicate-free, and its members are the old ones plus the key |
| `TimeRangeStore.SecondaryKeySet` | org.eclipse.tracecompass.analysis.os.linux.core/src/org/eclipse/tracecompass/analysis/os/linux/core/timerangestore/JDBMTimeRangeStore.java:41-55 | a secondary tree map's key set is ascending and holds exactly the keys extracted from the stored values |
| `TimeRangeStore.TailMapKeys` | org.eclipse.tracecompass.analysis.os.linux.core/src/org/eclipse/tracecompass/analysis/os/linux/core/timerangestore/JDBMTimeRangeStore.java:87 | `tailMap(t).keySet()` holds exactly the keys at or after t (inclusive), ascending |
| `TimeRangeStore.HeadMapKeys` | org.eclipse.tracecompass.analysis.os.linux.core/src/org/eclipse/tracecompass/analysis/os/linux/core/timerangestore/JDBMTimeRangeStore.java:88 | `headMap(t).keySet()` holds exactly the keys strictly before t, ascending |
| `TimeRangeStore.IntersectionIsUnion` | org.eclipse.tracecompass.analysis.os.linux.core/src/org/eclipse/tracecompass/analysis/os/linux/core/timerangestore/JDBMTimeRangeStore.java:98-106 | the helper named `intersection` returns the union of its two sets, ascending; for two disjoint sets, the first of them non-empty, it returns a key that is not in both |
| `TimeRangeStore.QueryKeys` | org.eclipse.tracecompass.analysis.os.linux.core/src/org/eclipse/tracecompass/analysis/os/linux/core/timerangestore/JDBMTimeRangeStore.java:86-89 | the query gathers, ascending and once each, the start times at or after t and the end times before t |
| `TimeRangeStore.GetIntersectingElements` | org.eclipse.tracecompass.analysis.os.linux.core/src/org/eclipse/tracecompass/analysis/os/linux/core/timerangestore/JDBMTimeRangeStore.java:86-96 | the query as written returns one primary-map lookup per gathered timestamp, in ascending order: the value at that index when the timestamp happens to be a record index, `null` otherwise |
| `TimeRangeStore.CoveringReferenceMembers` | org.eclipse.tracecompass.analysis.os.linux.core/src/org/eclipse/tracecompass/analysis/os/linux/core/timerangestore/JDBMTimeRangeStore.java:85-96 | the reference meaning of the query: a value is in it exactly when it is stored and its range contains t |
| `TimeRangeStore.SortedIntersect` | org.eclipse.tracecompass.analysis.os.linux.core/src/org/eclipse/tracecompass/analysis/os/linux/core/timerangestore/JDBMTimeRangeStore.java:98-106 | the intersection the helper's name promises: ascending, with exactly the keys in both inputs |
| `TimeRangeStore.MergedPositionsMatch` | org.eclipse.tracecompass.analysis.os.linux.core/src/org/eclipse/tracecompass/analysis/os/linux/core/timerangestore/JDBMTimeRangeStore.java:86-89 | intersecting "started by t" with "not ended before t" gives exactly the positions of the values covering t |
| `TimeRangeStore.CoveringElements` | org.eclipse.tracecompass.analysis.os.linux.core/src/org/eclipse/tracecompass/analysis/os/linux/core/timerangestore/JDBMTimeRangeStore.java:85-96 | the corrected query equals the reference: the stored values whose range contains t, in insertion order |
| `TimeRangeStore.CoveringElementsMembers` | org.eclipse.tracecompass.analysis.os.linux.core/src/org/eclipse/tracecompass/analysis/os/linux/core/timerangestore/JDBMTimeRangeStore.java:85-96 | a value is returned by the corrected query exactly when it is stored and start <= t <= end |
| `TimeRangeStore.QueryMissesCoveringInterval` | org.eclipse.tracecompass.analysis.os.linux.core/src/org/eclipse/tracecompass/analysis/os/linux/core/timerangestore/JDBMTimeRangeStore.java:86-96 | a store holding only [0, 5], queried at 3: the query as written returns nothing, the corrected one returns the interval |
| `SystemCalls.NewSystemCall` | org.eclipse.tracecompass.analysis.os.linux.core/src/org/eclipse/tracecompass/analysis/os/linux/core/latency/SystemCall.java:38-88 | the getters return the start time and name of the `InitialInfo`, its arguments, and the end time and return value given; the duration is the `long` difference end - start, and equals it when that fits a `long`; nothing checks the order of the two times |
| `SystemCalls.NegativeDurationAccepted` | org.eclipse.tracecompass.analysis.os.linux.core/src/org/eclipse/tracecompass/analysis/os/linux/core/latency/SystemCall.java:53-61 | an end time before the start time is accepted and gives a negative duration |
| `SystemCalls.ToString` | org.eclipse.tracecompass.analysis.os.linux.core/src/org/eclipse/tracecompass/analysis/os/linux/core/latency/SystemCall.java:90-98 | the rendering is Start Time, End Time, Duration, Name, Args and Return, in that order, joined by "; " |
| `EventLayout.EntryAndExitPrefixesExclusive` | org.eclipse.tracecompass.lttng2.kernel.core/src/org/eclipse/tracecompass/internal/lttng2/kernel/core/trace/layout/Lttng26EventLayout.java:35-48 | no event name starts with both "syscall_entry_" and "syscall_exit_" |
| `EventLayout.CompatEntryIsNotPlainEntry` | org.eclipse.tracecompass.lttng2.kernel.core/src/org/eclipse/tracecompass/internal/lttng2/kernel/core/trace/layout/Lttng26EventLayout.java:35-48 | a name with the compat entry prefix starts with neither the entry nor the exit prefix |
| `LatencyAnalysis.GetField` | org.eclipse.tracecompass.analysis.os.linux.core/src/org/eclipse/tracecompass/analysis/os/linux/core/latency/LatencyAnalysis.java:188 | a content field lookup returns a field of that name when one exists, and `null` exactly when none does |
| `LatencyAnalysis.Arguments` | org.eclipse.tracecompass.analysis.os.linux.core/src/org/eclipse/tracecompass/analysis/os/linux/core/latency/LatencyAnalysis.java:160-166 | the argument map fails with a `NullPointerException` exactly when some field value is `null`; otherwise it has one entry per content field, in field order, mapping its name to its value's text |
| `LatencyAnalysis.HandleData` | org.eclipse.tracecompass.analysis.os.linux.core/src/org/eclipse/tracecompass/analysis/os/linux/core/latency/LatencyAnalysis.java:141-192 | events that are neither entries nor exits, or whose thread is unknown, change nothing. An entry records `InitialInfo(ts, name minus the entry prefix's length, args)` under its thread and replaces any open one. An exit appends one call exactly when its thread had an open entry and "ret" is a non-null `long`; that call pairs the open entry with the exit time and the `int` value of "ret". The exit closes its own thread's entry, and every other open entry stays as it was; an exit with no open entry leaves the map unchanged. The thread is closed even when the "ret" access then throws. The store only grows at its end and stays consistent. Each exception happens exactly in its case: a name shorter than the entry prefix, a `null` field value on an entry (the request is unchanged), and on an exit with an open entry a missing, non-`Long` or `null` "ret" |
| `LatencyAnalysis.HandleCompleted` | org.eclipse.tracecompass.analysis.os.linux.core/src/org/eclipse/tracecompass/analysis/os/linux/core/latency/LatencyAnalysis.java:194-197 | completion empties the open-entry map and leaves the store alone, so unmatched entries never reach it |
| `LatencyAnalysis.RunAppendsMatchedExits` | org.eclipse.tracecompass.analysis.os.linux.core/src/org/eclipse/tracecompass/analysis/os/linux/core/latency/LatencyAnalysis.java:129-190 | over any event sequence the store keeps its earlier content, stays consistent and gains at most one call per exit that found an open entry; when no `handleData` throws it gains exactly one per such exit, and the open threads are those the entry/exit sequence leaves open |
| `LatencyAnalysis.DurationsNonNegative` | org.eclipse.tracecompass.analysis.os.linux.core/src/org/eclipse/tracecompass/analysis/os/linux/core/latency/LatencyAnalysis.java:158-190 | with non-negative, non-decreasing event times within `long` range, every stored call starts no later than it ends and has a non-negative duration |
| `LatencyAnalysis.CompletedStoreHoldsMatchedExits` | org.eclipse.tracecompass.analysis.os.linux.core/src/org/eclipse/tracecompass/analysis/os/linux/core/latency/LatencyAnalysis.java:125-197 | a request on a new store, once completed, has a consistent store with at most one element per matched exit, exactly that many when no `handleData` threw, and an empty open-entry map |
| `LatencyAnalysis.CompatEntryNameCut` | org.eclipse.tracecompass.analysis.os.linux.core/src/org/eclipse/tracecompass/analysis/os/linux/core/latency/LatencyAnalysis.java:146-159 | a compat entry's name is cut by the plain entry prefix's length: "compat_syscall_entry_read" is recorded as "_entry_read" |
| `LatencyAnalysis.LatencyScenario` | org.eclipse.tracecompass.analysis.os.linux.core/src/org/eclipse/tracecompass/analysis/os/linux/core/latency/LatencyAnalysis.java:141-197 | a four-event trace: an exit with no entry is ignored, a "ret" of 2^32 + 5 is stored as 5, the read call lasts 50, and the still-open entry is dropped on completion |
| `TmfEvents.DefaultEvent` | org.eclipse.linuxtools.tmf.core/src/org/eclipse/linuxtools/tmf/core/event/TmfEvent.java:75-83 | the default event has rank -1 and every other field `null` |
| `TmfEvents.NewEvent` | org.eclipse.linuxtools.tmf.core/src/org/eclipse/linuxtools/tmf/core/event/TmfEvent.java:96-106 | the full constructor stores its seven arguments |
| `TmfEvents.NewEventNoRank` | org.eclipse.linuxtools.tmf.core/src/org/eclipse/linuxtools/tmf/core/event/TmfEvent.java:111-116 | without a rank, the rank is -1 and the other arguments are stored |
| `TmfEvents.NewEventNoContent` | org.eclipse.linuxtools.tmf.core/src/org/eclipse/linuxtools/tmf/core/event/TmfEvent.java:120-125 | without a rank or content, the rank is -1, the content `null`, the rest stored |
| `TmfEvents.NewEventNoTrace` | org.eclipse.linuxtools.tmf.core/src/org/eclipse/linuxtools/tmf/core/event/TmfEvent.java:129-132 | without a trace, rank or content, the rank is -1, trace and content `null`, the rest stored |
| `TmfEvents.CopyEvent` | org.eclipse.linuxtools.tmf.core/src/org/eclipse/linuxtools/tmf/core/event/TmfEvent.java:139-149 | the copy constructor fails with `IllegalArgumentException` exactly on `null`; otherwise the copy has the original's seven fields, and `equals` the original exactly when the original's class is `TmfEvent` rather than a subclass |
| `TmfEvents.SetSource` | org.eclipse.linuxtools.tmf.core/src/org/eclipse/linuxtools/tmf/core/event/TmfEvent.java:218-220 | sets the source and changes no other field |
| `TmfEvents.SetTimestamp` | org.eclipse.linuxtools.tmf.core/src/org/eclipse/linuxtools/tmf/core/event/TmfEvent.java:225-227 | sets the timestamp and changes no other field |
| `TmfEvents.SetType` | org.eclipse.linuxtools.tmf.core/src/org/eclipse/linuxtools/tmf/core/event/TmfEvent.java:232-234 | sets the type and changes no other field |
| `TmfEvents.SetContent` | org.eclipse.linuxtools.tmf.core/src/org/eclipse/linuxtools/tmf/core/event/TmfEvent.java:239-241 | sets the content and changes no other field |
| `TmfEvents.SetReference` | org.eclipse.linuxtools.tmf.core/src/org/eclipse/linuxtools/tmf/core/event/TmfEvent.java:246-248 | sets the reference and changes no other field |
| `TmfEvents.EqualsIsFieldwise` | org.eclipse.linuxtools.tmf.core/src/org/eclipse/linuxtools/tmf/core/event/TmfEvent.java:298-340 | between two events of the same class, `equals` holds exactly when all seven fields are equal (null-safely) |
| `TmfEvents.EqualsReflexiveAndClassStrict` | org.eclipse.linuxtools.tmf.core/src/org/eclipse/linuxtools/tmf/core/event/TmfEvent.java:298-306 | `equals` is reflexive, false for `null`, and false for an object of another class |
| `TmfEvents.HashCode` | org.eclipse.linuxtools.tmf.core/src/org/eclipse/linuxtools/tmf/core/event/TmfEvent.java:281-293 | the hash, folded as 31 * result + field hash in `int` arithmetic, is an `int` |
| `TmfEvents.EqualEventsHashAlike` | org.eclipse.linuxtools.tmf.core/src/org/eclipse/linuxtools/tmf/core/event/TmfEvent.java:281-340 | events that are `equals` have the same `hashCode` |
| `TmfEvents.CopyHashesAlike` | org.eclipse.linuxtools.tmf.core/src/org/eclipse/linuxtools/tmf/core/event/TmfEvent.java:139-149 | a copy of an event of any class exists and has the original's `hashCode` |
| `EventParserStub.NewParserStub` | org.eclipse.linuxtools.tmf.core.tests/stubs/org/eclipse/linuxtools/tmf/tests/stubs/trace/TmfEventParserStub.java:43-62 | the constructor builds 10 types; type i is "Type-i" in context "UnitTest" with the i fields "Fmt-i-Fld-1" … "Fmt-i-Fld-i" under the root |
| `EventParserStub.ContentOf` | org.eclipse.linuxtools.tmf.core.tests/stubs/org/eclipse/linuxtools/tmf/tests/stubs/trace/TmfEventParserStub.java:98-103 | the content text is "[", the fields joined by ", ", then "]"; "[]" with no fields |
| `EventParserStub.ReadUtfs` | org.eclipse.linuxtools.tmf.core.tests/stubs/org/eclipse/linuxtools/tmf/tests/stubs/trace/TmfEventParserStub.java:94-96 | reading n strings yields n values, which are exactly the n strings at the read position |
| `EventParserStub.TypeIndex` | org.eclipse.linuxtools.tmf.core.tests/stubs/org/eclipse/linuxtools/tmf/tests/stubs/trace/TmfEventParserStub.java:68-93 | the type index is `Integer.parseInt` of what follows the 5-character "Type-" prefix; a shorter name throws `StringIndexOutOfBoundsException` (`NameTooShort`), a non-number `NumberFormatException` (`NotANumber`) |
| `EventParserStub.ParseNextEvent` | org.eclipse.linuxtools.tmf.core.tests/stubs/org/eclipse/linuxtools/tmf/tests/stubs/trace/TmfEventParserStub.java:71-113 | a stream other than the stub trace yields `null`; a parsed event has rank -1, the stream's trace, a timestamp with scale -3 and precision 0, and a type of the table |
| `EventParserStub.TypeIndexOfName` | org.eclipse.linuxtools.tmf.core.tests/stubs/org/eclipse/linuxtools/tmf/tests/stubs/trace/TmfEventParserStub.java:60-93 | the index parsed from the name "Type-i" is i |
| `EventParserStub.ParseEncodedRecord` | org.eclipse.linuxtools.tmf.core.tests/stubs/org/eclipse/linuxtools/tmf/tests/stubs/trace/TmfEventParserStub.java:71-109 | a record written as long ts, source, "Type-i", int reference and i field strings, read from its location, decodes to the event with that timestamp, source, type i, content and decimal reference |
| `EventParserStub.ReadUtfsEncoded` | org.eclipse.linuxtools.tmf.core.tests/stubs/org/eclipse/linuxtools/tmf/tests/stubs/trace/TmfEventParserStub.java:94-96 | reading back n strings written one after the other gives those strings and the position after them |
| `EventParserStub.ReadUtfsPastEnd` | org.eclipse.linuxtools.tmf.core.tests/stubs/org/eclipse/linuxtools/tmf/tests/stubs/trace/TmfEventParserStub.java:94-96 | reading more strings than the stream has left ends at end of input |
| `EventParserStub.TruncatedRecordYieldsNull` | org.eclipse.linuxtools.tmf.core.tests/stubs/org/eclipse/linuxtools/tmf/tests/stubs/trace/TmfEventParserStub.java:88-112 | a record cut short anywhere, with nothing after it, decodes to `null` |
| `EventParserStub.TypeIndexPastTable` | org.eclipse.linuxtools.tmf.core.tests/stubs/org/eclipse/linuxtools/tmf/tests/stubs/trace/TmfEventParserStub.java:93-108 | a well-formed record whose type index is 10 or more reads all its fields and then fails on the table lookup |
| `SdEvents.SubField` | org.eclipse.linuxtools.tmf.ui/src/org/eclipse/linuxtools/tmf/ui/views/uml2sd/loader/TmfUml2SDSyncLoader.java:1480-1482 | `getField(name)` returns a subfield with that name when there is one, and `null` exactly when there is none |
| `SdEvents.GetSequenceDiagramEvent` | org.eclipse.linuxtools.tmf.ui/src/org/eclipse/linuxtools/tmf/ui/views/uml2sd/loader/TmfUml2SDSyncLoader.java:1475-1493 | the recogniser yields a message exactly when the type text contains the send or receive keyword and the content has sender, receiver and signal fields, with their values as sender, receiver and name; it yields `null` exactly when the type is present and either lacks the keywords or lacks one of the fields in a present content; otherwise it throws a `NullPointerException` |
| `SdEvents.FilterMessage` | org.eclipse.linuxtools.tmf.ui/src/org/eclipse/linuxtools/tmf/ui/views/uml2sd/loader/TmfUml2SDSyncLoader.java:1222-1236 | a message is filtered exactly when some active criterion for messages matches its name |
| `SdEvents.FilterLifeLine` | org.eclipse.linuxtools.tmf.ui/src/org/eclipse/linuxtools/tmf/ui/views/uml2sd/loader/TmfUml2SDSyncLoader.java:1244-1258 | a lifeline is filtered exactly when some active criterion for lifelines matches its name |
| `SdIndexing.IndexDataStep` | org.eclipse.linuxtools.tmf.ui/src/org/eclipse/linuxtools/tmf/ui/views/uml2sd/loader/TmfUml2SDSyncLoader.java:304-343 | one more send/receive event, while the `int` counter has not reached `INT_MAX`, keeps the index description: count, one checkpoint per full block of 10000 spanning its first and last time, the open block's first time, the last time, the buffer of the first min(n, 10000) events, and the page filled once the count reaches 10000 |
| `SdIndexing.IndexAllDescribed` | org.eclipse.linuxtools.tmf.ui/src/org/eclipse/linuxtools/tmf/ui/views/uml2sd/loader/TmfUml2SDSyncLoader.java:304-343 | after any trace with at most `INT_MAX` send/receive events, the index state is the description above, in terms of those events and their times |
| `SdIndexing.SuccessStep` | org.eclipse.linuxtools.tmf.ui/src/org/eclipse/linuxtools/tmf/ui/views/uml2sd/loader/TmfUml2SDSyncLoader.java:349-369 | success closes the last, partial block and fills the page when the count is at most 10000 |
| `SdIndexing.IndexingResult` | org.eclipse.linuxtools.tmf.ui/src/org/eclipse/linuxtools/tmf/ui/views/uml2sd/loader/TmfUml2SDSyncLoader.java:304-369 | after n <= `INT_MAX` send/receive events and success there are ceil(n / 10000) checkpoints, the k-th spanning the first and last time of block k; the buffer holds the first min(n, 10000) events; the page is filled once from `handleData` when the count reaches 10000 and once from `handleSuccess` when it is at most 10000 |
| `SdIndexing.CheckpointsAreOrdered` | org.eclipse.linuxtools.tmf.ui/src/org/eclipse/linuxtools/tmf/ui/views/uml2sd/loader/TmfUml2SDSyncLoader.java:310-362 | with non-decreasing event times and at most `INT_MAX` send/receive events, every checkpoint starts no later than it ends |
| `SdIndexing.IndexPassResult` | org.eclipse.linuxtools.tmf.ui/src/org/eclipse/linuxtools/tmf/ui/views/uml2sd/loader/TmfUml2SDSyncLoader.java:304-369 | the index pass reaches `handleSuccess` exactly when no recognition throws, and then holds the full description; a `NullPointerException` from the recogniser ends the pass at the first such event, with the description of the events before it (for at most `INT_MAX` send/receive events) |
| `SdIndexing.CounterWrapsAfterIntMax` | org.eclipse.linuxtools.tmf.ui/src/org/eclipse/linuxtools/tmf/ui/views/uml2sd/loader/TmfUml2SDSyncLoader.java:296-366 | the `int` counter wraps from `INT_MAX` to `INT_MIN`, after which events are buffered again and `handleSuccess` fills the page a second time |
| `SdPaging.ResetLoader` | org.eclipse.linuxtools.tmf.ui/src/org/eclipse/linuxtools/tmf/ui/views/uml2sd/loader/TmfUml2SDSyncLoader.java:871-889 | a reset leaves no checkpoints, page 0 and no current time |
| `SdPaging.MoveToPageAsWritten` | org.eclipse.linuxtools.tmf.ui/src/org/eclipse/linuxtools/tmf/ui/views/uml2sd/loader/TmfUml2SDSyncLoader.java:1093-1106 | the guard as written lets the list access go out of range exactly when the page is negative or equal to the number of checkpoints |
| `SdPaging.MoveToPage` | org.eclipse.linuxtools.tmf.ui/src/org/eclipse/linuxtools/tmf/ui/views/uml2sd/loader/TmfUml2SDSyncLoader.java:1093-1106 | the corrected guard never accesses out of range, and requests the current page's checkpoint exactly when the page exists |
| `SdPaging.NextPage` | org.eclipse.linuxtools.tmf.ui/src/org/eclipse/linuxtools/tmf/ui/views/uml2sd/loader/TmfUml2SDSyncLoader.java:704-720 | `nextPage` moves forward by one page or not at all and keeps the checkpoints; its request goes through the guard as written |
| `SdPaging.PrevPage` | org.eclipse.linuxtools.tmf.ui/src/org/eclipse/linuxtools/tmf/ui/views/uml2sd/loader/TmfUml2SDSyncLoader.java:726-742 | `prevPage` moves back by one page or not at all and keeps the checkpoints; its request goes through the guard as written |
| `SdPaging.FirstPage` | org.eclipse.linuxtools.tmf.ui/src/org/eclipse/linuxtools/tmf/ui/views/uml2sd/loader/TmfUml2SDSyncLoader.java:748-760 | `firstPage` goes to page 0, clears the current time and requests the first checkpoint when there is one; with no checkpoints the `get(0)` throws |
| `SdPaging.LastPage` | org.eclipse.linuxtools.tmf.ui/src/org/eclipse/linuxtools/tmf/ui/views/uml2sd/loader/TmfUml2SDSyncLoader.java:766-777 | `lastPage` goes to page size - 1, clears the current time and requests the last checkpoint when there is one; with no checkpoints the page is -1 and the `get(-1)` throws |
| `SdPaging.PageNumberChanged` | org.eclipse.linuxtools.tmf.ui/src/org/eclipse/linuxtools/tmf/ui/views/uml2sd/loader/TmfUml2SDSyncLoader.java:811-831 | the new page is a page of the list when there are checkpoints, the requested page when that page exists, and its checkpoint is requested; with no checkpoints the clamped page -1 makes the `get` throw |
| `SdPaging.NextPageMovesIffHasNext` | org.eclipse.linuxtools.tmf.ui/src/org/eclipse/linuxtools/tmf/ui/views/uml2sd/loader/TmfUml2SDSyncLoader.java:672-720 | `nextPage` advances exactly when `hasNextPage` holds and then requests the next checkpoint; otherwise nothing changes |
| `SdPaging.PrevPageMovesIffHasPrev` | org.eclipse.linuxtools.tmf.ui/src/org/eclipse/linuxtools/tmf/ui/views/uml2sd/loader/TmfUml2SDSyncLoader.java:690-742 | `prevPage` goes back exactly when `hasPrevPage` holds and then requests the previous checkpoint; otherwise nothing changes |
| `SdPaging.PageNumberChangedClamps` | org.eclipse.linuxtools.tmf.ui/src/org/eclipse/linuxtools/tmf/ui/views/uml2sd/loader/TmfUml2SDSyncLoader.java:811-831 | the new page is min(max(p, 0), size - 1), so -1 when there are no checkpoints |
| `SdPaging.PagingKeepsPageInRange` | org.eclipse.linuxtools.tmf.ui/src/org/eclipse/linuxtools/tmf/ui/views/uml2sd/loader/TmfUml2SDSyncLoader.java:704-889 | every paging operation and the reset leave the page at -1, 0, or a page of the list |
| `SdPaging.CheckpointGrowthKeepsPageInRange` | org.eclipse.linuxtools.tmf.ui/src/org/eclipse/linuxtools/tmf/ui/views/uml2sd/loader/TmfUml2SDSyncLoader.java:321 | checkpoints appended by the index pass keep the page in that range |
| `SdPaging.MoveToPageGuardOffByOne` | org.eclipse.linuxtools.tmf.ui/src/org/eclipse/linuxtools/tmf/ui/views/uml2sd/loader/TmfUml2SDSyncLoader.java:748-777 | after a reset, `firstPage` (page 0 of an empty list) and `lastPage` (page -1) both reach an out-of-range `get` as written, and request nothing with the corrected guard |
| `SdPaging.MoveToPageCorrectsOnlyTheThrow` | org.eclipse.linuxtools.tmf.ui/src/org/eclipse/linuxtools/tmf/ui/views/uml2sd/loader/TmfUml2SDSyncLoader.java:1093-1106 | the corrected guard differs from the guard as written only where the latter throws, and issues no request there |
| `SdPaging.GetPage` | org.eclipse.linuxtools.tmf.ui/src/org/eclipse/linuxtools/tmf/ui/views/uml2sd/loader/TmfUml2SDSyncLoader.java:1148-1167 | `getPage(t)` is the first page whose checkpoint ends at or after t, otherwise size - 1 (-1 with no checkpoints) |
| `SdPageFill.CreateLifelines` | org.eclipse.linuxtools.tmf.ui/src/org/eclipse/linuxtools/tmf/ui/views/uml2sd/loader/TmfUml2SDSyncLoader.java:911-932 | one lifeline per distinct name that some event sends or receives and that is not filtered, each starting at occurrence 0 |
| `SdPageFill.SkippedIffNotShown` | org.eclipse.linuxtools.tmf.ui/src/org/eclipse/linuxtools/tmf/ui/views/uml2sd/loader/TmfUml2SDSyncLoader.java:939-951 | with lifelines for exactly the unfiltered names, a message is skipped exactly when it is filtered or one of its lifelines is |
| `SdPageFill.NumberEventKeeps` | org.eclipse.linuxtools.tmf.ui/src/org/eclipse/linuxtools/tmf/ui/views/uml2sd/loader/TmfUml2SDSyncLoader.java:936-969 | one iteration of the numbering loop keeps every lifeline counter below the running counter and numbers a shown message one past the previous one |
| `SdPageFill.NumberMessages` | org.eclipse.linuxtools.tmf.ui/src/org/eclipse/linuxtools/tmf/ui/views/uml2sd/loader/TmfUml2SDSyncLoader.java:934-969 | the messages are the shown events, in order, numbered 1, 2, 3, … |
| `SdPageFill.FillCurrentPage` | org.eclipse.linuxtools.tmf.ui/src/org/eclipse/linuxtools/tmf/ui/views/uml2sd/loader/TmfUml2SDSyncLoader.java:896-969 | the page keeps the given events; the frame has one lifeline per distinct unfiltered name, and the k-th message is the k-th shown event with occurrence k + 1 |
| `JavaLang.Wrap32` | org.eclipse.tracecompass.analysis.os.linux.core/src/org/eclipse/tracecompass/analysis/os/linux/core/latency/LatencyAnalysis.java:188 | `Long.intValue()` yields an `int` congruent to its input modulo 2^32, and the input itself when it fits |
| `JavaLang.Wrap64` | org.eclipse.tracecompass.analysis.os.linux.core/src/org/eclipse/tracecompass/analysis/os/linux/core/latency/SystemCall.java:60 | `long` subtraction yields a `long` congruent to the exact difference modulo 2^64, and the difference itself when it fits |
| `JavaLang.Contains` | org.eclipse.linuxtools.tmf.ui/src/org/eclipse/linuxtools/tmf/ui/views/uml2sd/loader/TmfUml2SDSyncLoader.java:1479 | `contains` holds exactly when the keyword occurs at some position of the text |
| `JavaLang.IntToDecimal` | org.eclipse.linuxtools.tmf.core.tests/stubs/org/eclipse/linuxtools/tmf/tests/stubs/trace/TmfEventParserStub.java:108 | the decimal rendering starts with "-" exactly for negative numbers and is all digits otherwise |
| `JavaLang.ParseInt` | org.eclipse.linuxtools.tmf.core.tests/stubs/org/eclipse/linuxtools/tmf/tests/stubs/trace/TmfEventParserStub.java:93 | `Integer.parseInt` returns a value exactly when the text is an optional sign followed by at least one digit and the value fits an `int`, and the value is the one the numeral denotes; otherwise it throws |
| `JavaLang.ParseIntOfDecimal` | org.eclipse.linuxtools.tmf.core.tests/stubs/org/eclipse/linuxtools/tmf/tests/stubs/trace/TmfEventParserStub.java:60-93 | parsing the decimal rendering of an `int` gives it back |
| `JavaLang.StringHash` | org.eclipse.linuxtools.tmf.core/src/org/eclipse/linuxtools/tmf/core/event/TmfEvent.java:288 | `String.hashCode` is the polynomial s[0]*31^(n-1) + ... + s[n-1] over the UTF-16 code units, narrowed to an `int`; 0 for the empty string |
| `JavaLang.SupplementaryCharHash` | org.eclipse.linuxtools.tmf.core/src/org/eclipse/linuxtools/tmf/core/event/TmfEvent.java:288 | a character outside the Basic Multilingual Plane hashes through its two surrogates: U+1F600 hashes to 31 * 0xD83D + 0xDE00 = 1772899 |
| `JavaLang.LongHash` | org.eclipse.linuxtools.tmf.core/src/org/eclipse/linuxtools/tmf/core/event/TmfEvent.java:286 | `(int) (rank ^ (rank >>> 32))` is an `int` |

## Left out

- Concurrency is not modelled: `synchronized` on `addValue`, the loader's lock and volatile fields, its jobs and `asyncExec`. The model is the single-threaded behaviour.
- JDBM's record manager is not modelled: its creation, real commit and close, `dispose`, and record-id assignment. Commits are a counter; ids are insertion positions.
- The store query has no second call that could differ from the first: every operation is a pure function of the store.
- `LatencyAnalysis.executeAnalysis`, its file checks and its object serialization are I/O. Because `fDuration` is transient, a store read back from disk reports duration 0; that round trip is not modelled.
- `super.handleData` of the event requests only counts events, and its counters are not modelled.
- The cooperative cancel of the requests is not modelled.
- The kernel thread id (`KernelTidAspect`) is given with each event rather than resolved.
- `LatencyAnalysis.Arguments`: the content's field names are assumed distinct. With a repeated name, the source's map (Guava's `toMap`) keeps one entry for that name, while `Arguments` keeps one per field.
- The `ImmutableMap` copy in `InitialInfo` needs no model: a Dafny sequence is a value, so a caller's later change cannot reach it.
- `Lttng26EventLayout`'s private constructor and singleton are the single constant `EventLayout.Lttng26()`.
- The UI and SWT parts of the loader are not modelled: the frame name, `find`, `moveToMessageInPage`, signal broadcasting, view updates and the wait cursor.
- `moveToPage` is modelled up to the window it requests. The request itself, and the `ETERNITY` window for a `null` checkpoint, are not modelled.
- `Messages` keywords and field names are parameters (`SdKeywords`). The `Messages` class is not part of this model.
- `Lifeline` is not part of this model. A new lifeline's event occurrence is taken as 0, and `setCurrentEventOccurrence` is taken to set it.
- `Criteria.matches` is a parameter.
- A `null` timestamp in the index pass (a `NullPointerException` at `clone`) is not modelled: events carry a timestamp value.
- The index request's timestamp scale is ignored; times are integers.
- The parser stub reads already-decoded values, not bytes. `Malformed` stands for a value of the wrong kind at a position, which a real byte stream would instead misread.
- The stub's location is a position in that sequence of values. `ROOT_FIELD_ID` is the `rootId` parameter.
- `TmfEvent.clone` and `TmfEvent.toString` are not modelled.
- The component types' `equals` is Dafny value equality, and their `hashCode`s are parameters.
- `EventParserStub.ParseNextEvent`: its own contract states only the shape of a parsed event. The decoding itself is stated by `EventParserStub.ParseEncodedRecord`, `EventParserStub.TruncatedRecordYieldsNull` and `EventParserStub.TypeIndexPastTable`.
- `SdPaging.NextPageMovesIffHasNext`: requires the page to be -1, 0 or a page of the list. With no checkpoints and a page below -1, `nextPage` advances while `hasNextPage` is false. No operation leaves such a page (`SdPaging.PagingKeepsPageInRange`).
- `JavaLang.ParseInt`: reads ASCII digits only. `Integer.parseInt` also accepts the other Unicode decimal digits (`Character.digit`); their tables are not part of this model.
- `EventParserStub.TypeIndex`: cuts the type name after 5 characters, where Java's `substring(5)` cuts after 5 UTF-16 code units. The two differ only when a character outside the Basic Multilingual Plane comes before or at the cut.
- `LatencyAnalysis.HandleData`: cuts the entry name after as many characters as the entry prefix has, where Java counts UTF-16 code units. The two differ only when a character outside the Basic Multilingual Plane comes before or at the cut.
- The index pass is taken to end at an exception from `handleData`, without `handleSuccess`. The request framework that catches it is not part of this model.
- `LatencyAnalysis.Run`: an exception from `handleData` is taken to end the request, as for the index pass. `LatencyAnalysis.RunAppendsMatchedExits` and `LatencyAnalysis.CompletedStoreHoldsMatchedExits` give the exact count only for runs in which no `handleData` throws, and an upper bound otherwise.
- `SdIndexing.IndexDataStep`: holds while the count is below `INT_MAX`. `IndexData` itself wraps the `int` counter as Java does (`SdIndexing.CounterWrapsAfterIntMax`); the description is not stated past the wrap.
- `SdIndexing.IndexingResult`: holds for traces with at most `INT_MAX` (2^31 - 1) send/receive events. Past that the counter wraps: 2^31 is not a multiple of 10000, so the block across the wrap is shorter, and the page is buffered and filled again. `SdIndexing.IndexAllDescribed`, `SdIndexing.CheckpointsAreOrdered` and `SdIndexing.IndexPassResult` carry the same bound.
- `TmfEvents.HashCode`: states only that the result is an `int`. Its agreement with `equals` is `TmfEvents.EqualEventsHashAlike`.

## Findings

| source | as written | input that shows it | evidently intended | confidence | as-written member | corrected member |
|---|---|---|---|---|---|---|
| org.eclipse.tracecompass.analysis.os.linux.core/src/org/eclipse/tracecompass/analysis/os/linux/core/timerangestore/JDBMTimeRangeStore.java:86-106 | `getIntersectingElements(t)` takes the union of start times at or after t and end times before t. It then looks those timestamps up as record ids. | a store holding only the interval [0, 5], queried at t = 3: no key is gathered, so the result is empty | the values whose range contains t (start <= t <= end) | not executed | `TimeRangeStore.QueryMissesCoveringInterval` | `TimeRangeStore.CoveringElements` |
| org.eclipse.linuxtools.tmf.ui/src/org/eclipse/linuxtools/tmf/ui/views/uml2sd/loader/TmfUml2SDSyncLoader.java:1100-1103 | the guard `fCurrentPage > fCheckPoints.size()` returns only past the end, so page `size` and page -1 reach `fCheckPoints.get` out of range | `firstPage()` or `lastPage()` right after `resetLoader()` (no checkpoints; page 0 and page -1) | request a window only for a page of the list (0 <= page < size) | not executed | `SdPaging.MoveToPageGuardOffByOne` | `SdPaging.MoveToPage` |

=== FILE: event_layout.dfy ===
/**
 * The event-name conventions of LTTng kernel traces (lttng-modules 2.6 and
 * later) that the latency analysis relies on: the prefixes of system call
 * entry, compat entry and exit events.
 */
module EventLayout {
  import opened JavaLang

  /** The part of a kernel event layout the latency analysis asks for. */
  datatype Layout = Layout(
    syscallEntryPrefix: string,
    compatSyscallEntryPrefix: string,
    syscallExitPrefix: string)

  /**
   * `Lttng26EventLayout.getInstance()`: the one LTTng 2.6 layout. A function
   * without parameters models the private constructor and the single shared
   * instance: every call yields the same value.
   */
  function Lttng26(): Layout {
    Layout("syscall_entry_", "compat_syscall_entry_", "syscall_exit_")
  }

  /** No event name starts with both the entry and the exit prefix: they differ at index 9. */
  lemma EntryAndExitPrefixesExclusive(name: string)
    ensures !(StartsWith(name, Lttng26().syscallEntryPrefix) && StartsWith(name, Lttng26().syscallExitPrefix))
  {
    assert StartsWith(name, Lttng26().syscallEntryPrefix) ==> name[9] == 'n';
    assert StartsWith(name, Lttng26().syscallExitPrefix) ==> name[9] == 'x';
  }

  /** A compat entry name never starts with the plain entry prefix, nor with the exit prefix. */
  lemma CompatEntryIsNotPlainEntry(name: string)
    ensures StartsWith(name, Lttng26().compatSyscallEntryPrefix) ==> !StartsWith(name, Lttng26().syscallEntryPrefix)
    ensures StartsWith(name, Lttng26().compatSyscallEntryPrefix) ==> !StartsWith(name, Lttng26().syscallExitPrefix)
  {
    assert StartsWith(name, Lttng26().compatSyscallEntryPrefix) ==> name[0] == 'c';
    assert StartsWith(name, Lttng26().syscallEntryPrefix) ==> name[0] == 's';
    assert StartsWith(name, Lttng26().syscallExitPrefix) ==> name[0] == 's';
  }
}

=== FILE: event_parser_stub.dfy ===
/**
 * The test-stub event parser: a table of ten event types, and a decoder for a
 * fixed record layout read from the stub trace's stream. The stream is seen
 * at the level of the values its reads return: a `long`, a UTF string, an
 * `int`.
 */
module EventParserStub {
  import opened JavaLang
  import opened TmfEvents

  const NB_TYPES: nat := 10
  const TYPE_PREFIX: string := "Type-"
  const TYPE_CONTEXT: string := "UnitTest"

  /** One value of the stream, as `readLong`, `readUTF` or `readInt` returns it. */
  datatype Token = LongTok(l: int) | UtfTok(s: string) | IntTok(i: int)

  // ---------------------------------------------------------------------------
  // The type table
  // ---------------------------------------------------------------------------

  /** The name of type `i`: "Type-" followed by `i` in decimal. */
  function TypeName(i: nat): string {
    TYPE_PREFIX + IntToDecimal(i)
  }

  /** The field names of type `i`: "Fmt-i-Fld-j" for j = 1..i. */
  function FieldNames(i: nat): (names: seq<string>)
    ensures |names| == i
  {
    seq(i, k requires 0 <= k < i => "Fmt-" + IntToDecimal(i) + "-Fld-" + IntToDecimal(k + 1))
  }

  /** `TmfEventField.makeRoot(names)`: a root whose subfields carry the names and no values. */
  function MakeRoot(rootId: string, names: seq<string>): (root: EventField)
    ensures root.name == rootId && root.value.None? && |root.subfields| == |names|
    ensures forall k :: 0 <= k < |names| ==> root.subfields[k] == EventField(names[k], None, [])
  {
    EventField(rootId, None, seq(|names|, k requires 0 <= k < |names| => EventField(names[k], None, [])))
  }

  /** Type `i` of the table, defined directly. */
  function StubType(rootId: string, i: nat): EventType {
    EventType(TYPE_CONTEXT, TypeName(i), MakeRoot(rootId, FieldNames(i)))
  }

  /** The whole table, defined directly. */
  function StubTypes(rootId: string): (types: seq<EventType>)
    ensures |types| == NB_TYPES
  {
    seq(NB_TYPES, i requires 0 <= i < NB_TYPES => StubType(rootId, i))
  }

  /**
   * The constructor: for each i below 10, collects the field names
   * "Fmt-i-Fld-j" for j = 1..i and builds type "Type-i" in context "UnitTest".
   * `rootId` is the identifier given to root fields.
   */
  method NewParserStub(rootId: string) returns (types: seq<EventType>)
    ensures |types| == NB_TYPES
    ensures forall i :: 0 <= i < NB_TYPES ==>
              types[i].context == TYPE_CONTEXT && types[i].name == TypeName(i) &&
              types[i].root == MakeRoot(rootId, FieldNames(i))
    ensures types == StubTypes(rootId)
  {
    types := [];
    var i := 0;
    while i < NB_TYPES
      invariant 0 <= i <= NB_TYPES && |types| == i
      invariant forall k :: 0 <= k < i ==> types[k] == StubType(rootId, k)
    {
      var fields: seq<string> := [];
      var j := 1;
      while j <= i
        invariant 1 <= j <= i + 1 && |fields| == j - 1
        invariant fields == FieldNames(i)[..j - 1]
      {
        fields := fields + ["Fmt-" + IntToDecimal(i) + "-Fld-" + IntToDecimal(j)];
        j := j + 1;
      }
      assert fields == FieldNames(i);
      types := types + [EventType(TYPE_CONTEXT, TYPE_PREFIX + IntToDecimal(i), MakeRoot(rootId, fields))];
      i := i + 1;
    }
  }

  // ---------------------------------------------------------------------------
  // The content string
  // ---------------------------------------------------------------------------

  /** The buffer after appending ", " and each of `fields[i..]`, as the second loop does. */
  function AppendRest(buf: string, fields: seq<string>, i: nat): string
    decreases |fields| - i
  {
    if i >= |fields| then buf else AppendRest(buf + ", " + fields[i], fields, i + 1)
  }

  /** The loop continued from a buffer holding the first `i` fields gives all of them joined. */
  lemma {:induction false} AppendRestJoins(fields: seq<string>, i: nat)
    requires 1 <= i <= |fields|
    ensures AppendRest("[" + Join(fields[..i], ", "), fields, i) == "[" + Join(fields, ", ")
    decreases |fields| - i
  {
    if i < |fields| {
      JoinSnoc(fields[..i], fields[i], ", ");
      assert fields[..i] + [fields[i]] == fields[..i + 1];
      assert "[" + Join(fields[..i], ", ") + ", " + fields[i] == "[" + Join(fields[..i + 1], ", ");
      AppendRestJoins(fields, i + 1);
    } else {
      assert fields[..i] == fields;
    }
  }

  /**
   * The content text: "[", the first field if any, then ", " and each later
   * field, then "]". It is the fields joined by ", " between brackets.
   */
  function ContentOf(fields: seq<string>): (c: string)
    ensures c == "[" + Join(fields, ", ") + "]"
    ensures |fields| == 0 ==> c == "[]"
  {
    if |fields| > 0 then
      AppendRestJoins(fields, 1);
      assert fields[..1] == [fields[0]];
      AppendRest("[" + fields[0], fields, 1) + "]"
    else
      AppendRest("[", fields, 1) + "]"
  }

  // ---------------------------------------------------------------------------
  // Reading a record
  // ---------------------------------------------------------------------------

  /** A read: the value and the next position, the end of the stream, or a value of another kind. */
  datatype Read<T> = Got(value: T, next: nat) | Eof | Mismatch

  function ReadLong(ts: seq<Token>, p: nat): Read<int> {
    if p >= |ts| then Eof else if ts[p].LongTok? then Got(ts[p].l, p + 1) else Mismatch
  }

  function ReadUtf(ts: seq<Token>, p: nat): Read<string> {
    if p >= |ts| then Eof else if ts[p].UtfTok? then Got(ts[p].s, p + 1) else Mismatch
  }

  function ReadInt(ts: seq<Token>, p: nat): Read<int> {
    if p >= |ts| then Eof else if ts[p].IntTok? then Got(ts[p].i, p + 1) else Mismatch
  }

  /** The values `fields` are written as, one string each. */
  function Utfs(fields: seq<string>): (tokens: seq<Token>)
    ensures |tokens| == |fields|
  {
    seq(|fields|, k requires 0 <= k < |fields| => UtfTok(fields[k]))
  }

  /** `n` UTF strings read one after the other. */
  function ReadUtfs(ts: seq<Token>, p: nat, n: nat): (r: Read<seq<string>>)
    ensures r.Got? ==> |r.value| == n && r.next == p + n
    ensures r.Got? && n > 0 ==> p + n <= |ts| && ts[p..p + n] == Utfs(r.value)
    decreases n
  {
    if n == 0 then Got([], p)
    else if p >= |ts| then Eof
    else if !ts[p].UtfTok? then Mismatch
    else
      var rest := ReadUtfs(ts, p + 1, n - 1);
      if rest.Eof? then Eof
      else if rest.Mismatch? then Mismatch
      else
        var vals := [ts[p].s] + rest.value;
        assert p + n <= |ts|;
        assert ts[p..p + n] == [ts[p]] + ts[p + 1..p + n];
        assert Utfs(vals) == [UtfTok(ts[p].s)] + Utfs(rest.value);
        Got(vals, rest.next)
  }

  /** What `parseNextEvent` is given as its stream: the stub trace with its values, or another trace. */
  datatype Stream = TraceStub(trace: TraceRef, tokens: seq<Token>) | OtherTrace(trace: TraceRef)

  /** Exceptions other than end of input. `Malformed` is a value of the wrong kind. */
  datatype Fault = StringIndexOutOfBounds | NumberFormat | NegativeArraySize | ArrayIndexOutOfBounds | Malformed

  /** An event, `null` (no event), or an exception. */
  datatype ParseResult = Parsed(event: Event) | NoEvent | Failed(fault: Fault)

  /**
   * The outcome of reading a type index from a type name: the index, or the
   * `StringIndexOutOfBoundsException` of a name shorter than the prefix, or
   * the `NumberFormatException` of a suffix that is not a number.
   */
  datatype TypeIndexResult = Index(value: int) | NameTooShort | NotANumber

  /** The type index named by a type string: the integer after the 5-character prefix. */
  function TypeIndex(typeName: string): (r: TypeIndexResult)
    ensures r.NameTooShort? <==> |typeName| < |TYPE_PREFIX|
    ensures r.Index? ==> |typeName| >= |TYPE_PREFIX| && ParseInt(typeName[|TYPE_PREFIX|..]) == Some(r.value)
    ensures r.NotANumber? ==> |typeName| >= |TYPE_PREFIX| && ParseInt(typeName[|TYPE_PREFIX|..]).None?
  {
    if |typeName| < |TYPE_PREFIX| then NameTooShort
    else match ParseInt(typeName[|TYPE_PREFIX|..])
      case None => NotANumber
      case Some(i) => Index(i)
  }

  /** The event built from a decoded record. */
  function RecordEvent(trace: TraceRef, rootId: string, ts: int, source: string, eventType: EventType,
                       reference: int, fields: seq<string>): Event {
    NewEventNoRank(Some(trace), Some(Timestamp(ts, -3, 0)), Some(source), Some(eventType),
                   Some(EventField(rootId, Some(ContentOf(fields)), [])), Some(IntToDecimal(reference)))
  }

  /**
   * `parseNextEvent`: reads, from `location` (0 when there is no context), a
   * `long` timestamp, a source, a type name, an `int` reference, and as many
   * field strings as the type index says; end of input anywhere gives `null`.
   */
  function ParseNextEvent(types: seq<EventType>, rootId: string, stream: Stream, location: Option<nat>): (r: ParseResult)
    ensures stream.OtherTrace? ==> r == NoEvent
    ensures r.Parsed? ==> r.event.rank == -1 && r.event.trace == Some(stream.trace)
    ensures r.Parsed? ==> r.event.timestamp.Some? && r.event.timestamp.value.scale == -3
                          && r.event.timestamp.value.precision == 0
    ensures r.Parsed? ==> r.event.eventType.Some? && r.event.eventType.value in types
  {
    if stream.OtherTrace? then NoEvent
    else
      var tokens := stream.tokens;
      var p0 := if location.None? then 0 else location.value;
      match ReadLong(tokens, p0)
      case Eof => NoEvent
      case Mismatch => Failed(Malformed)
      case Got(ts, p1) =>
        match ReadUtf(tokens, p1)
        case Eof => NoEvent
        case Mismatch => Failed(Malformed)
        case Got(source, p2) =>
          match ReadUtf(tokens, p2)
          case Eof => NoEvent
          case Mismatch => Failed(Malformed)
          case Got(typeName, p3) =>
            match ReadInt(tokens, p3)
            case Eof => NoEvent
            case Mismatch => Failed(Malformed)
            case Got(reference, p4) =>
              match TypeIndex(typeName)
              case NameTooShort => Failed(StringIndexOutOfBounds)
              case NotANumber => Failed(NumberFormat)
              case Index(index) =>
                if index < 0 then Failed(NegativeArraySize)
                else
                  match ReadUtfs(tokens, p4, index)
                  case Eof => NoEvent
                  case Mismatch => Failed(Malformed)
                  case Got(fields, _) =>
                    if index >= |types| then Failed(ArrayIndexOutOfBounds)
                    else Parsed(RecordEvent(stream.trace, rootId, ts, source, types[index], reference, fields))
  }

  /** The values a record of type `i` is written as. */
  function EncodeRecord(ts: int, source: string, i: nat, reference: int, fields: seq<string>): (tokens: seq<Token>)
    ensures |tokens| == 4 + |fields|
  {
    [LongTok(ts), UtfTok(source), UtfTok(TypeName(i)), IntTok(reference)]
      + Utfs(fields)
  }

  /** The type index is read back from a type name. */
  lemma TypeIndexOfName(i: nat)
    requires IsInt(i)
    ensures TypeIndex(TypeName(i)) == Index(i)
  {
    assert TypeName(i)[|TYPE_PREFIX|..] == IntToDecimal(i);
    ParseIntOfDecimal(i);
  }

  /**
   * Decoding a record written for type `i` of the table, wherever it sits in
   * the stream, gives back its timestamp, source, type, reference and fields.
   */
  lemma ParseEncodedRecord(rootId: string, trace: TraceRef, before: seq<Token>, after: seq<Token>,
                           ts: int, source: string, i: nat, reference: int, fields: seq<string>)
    requires i < NB_TYPES && |fields| == i
    ensures ParseNextEvent(StubTypes(rootId), rootId,
                           TraceStub(trace, before + EncodeRecord(ts, source, i, reference, fields) + after),
                           Some(|before|))
         == Parsed(RecordEvent(trace, rootId, ts, source, StubType(rootId, i), reference, fields))
  {
    var tokens := before + EncodeRecord(ts, source, i, reference, fields) + after;
    var p := |before|;
    assert tokens[p..p + 4 + |fields|] == EncodeRecord(ts, source, i, reference, fields);
    ReadEncodedRecord(tokens, p, ts, source, i, reference, fields);
    TypeIndexOfName(i);
    ParseReadRecord(StubTypes(rootId), rootId, trace, tokens, Some(p), ts, source, TypeName(i), reference, i, fields, p + 4 + i);
    assert StubTypes(rootId)[i] == StubType(rootId, i);
  }

  /** Once every read of a record has succeeded, the only thing left to decide is the type table lookup. */
  lemma ParseReadRecord(types: seq<EventType>, rootId: string, trace: TraceRef, tokens: seq<Token>, location: Option<nat>,
                        ts: int, source: string, typeName: string, reference: int, index: nat, fields: seq<string>, q: nat)
    requires var p := if location.None? then 0 else location.value;
             ReadLong(tokens, p) == Got(ts, p + 1) && ReadUtf(tokens, p + 1) == Got(source, p + 2)
             && ReadUtf(tokens, p + 2) == Got(typeName, p + 3) && ReadInt(tokens, p + 3) == Got(reference, p + 4)
             && TypeIndex(typeName) == Index(index) && ReadUtfs(tokens, p + 4, index) == Got(fields, q)
    ensures ParseNextEvent(types, rootId, TraceStub(trace, tokens), location)
         == if index >= |types| then Failed(ArrayIndexOutOfBounds)
            else Parsed(RecordEvent(trace, rootId, ts, source, types[index], reference, fields))
  {
  }
  /** The four header values of a record are read back, and its fields follow them. */
  /** Every read of an encoded record, header and fields alike, returns what was encoded. */
  lemma ReadEncodedRecord(tokens: seq<Token>, p: nat, ts: int, source: string, i: nat, reference: int, fields: seq<string>)
    requires p + 4 + |fields| <= |tokens|
    requires tokens[p..p + 4 + |fields|] == EncodeRecord(ts, source, i, reference, fields)
    ensures ReadLong(tokens, p) == Got(ts, p + 1) && ReadUtf(tokens, p + 1) == Got(source, p + 2)
    ensures ReadUtf(tokens, p + 2) == Got(TypeName(i), p + 3) && ReadInt(tokens, p + 3) == Got(reference, p + 4)
    ensures ReadUtfs(tokens, p + 4, |fields|) == Got(fields, p + 4 + |fields|)
  {
    ReadEncodedHeader(tokens, p, ts, source, i, reference, fields);
    ReadUtfsEncoded(tokens, p + 4, fields);
  }
  lemma ReadEncodedHeader(tokens: seq<Token>, p: nat, ts: int, source: string, i: nat, reference: int, fields: seq<string>)
    requires p + 4 + |fields| <= |tokens|
    requires tokens[p..p + 4 + |fields|] == EncodeRecord(ts, source, i, reference, fields)
    ensures ReadLong(tokens, p) == Got(ts, p + 1) && ReadUtf(tokens, p + 1) == Got(source, p + 2)
    ensures ReadUtf(tokens, p + 2) == Got(TypeName(i), p + 3) && ReadInt(tokens, p + 3) == Got(reference, p + 4)
    ensures tokens[p + 4..p + 4 + |fields|] == Utfs(fields)
  {
    var record := EncodeRecord(ts, source, i, reference, fields);
    assert tokens[p] == record[0] && tokens[p + 1] == record[1];
    assert tokens[p + 2] == record[2] && tokens[p + 3] == record[3];
    assert tokens[p + 4..p + 4 + |fields|] == record[4..];
  }

  /** Reading back `n` strings written one after the other. */
  lemma {:induction false} ReadUtfsEncoded(tokens: seq<Token>, p: nat, fields: seq<string>)
    requires p + |fields| <= |tokens|
    requires tokens[p..p + |fields|] == Utfs(fields)
    ensures ReadUtfs(tokens, p, |fields|) == Got(fields, p + |fields|)
    decreases |fields|
  {
    if |fields| > 0 {
      assert tokens[p] == tokens[p..p + |fields|][0];
      assert tokens[p + 1..p + |fields|] == tokens[p..p + |fields|][1..];
      assert Utfs(fields)[1..] == Utfs(fields[1..]);
      ReadUtfsEncoded(tokens, p + 1, fields[1..]);
      assert [fields[0]] + fields[1..] == fields;
    }
  }

  /** Reading more strings than the stream has left ends at the end of input. */
  lemma {:induction false} ReadUtfsPastEnd(ts: seq<Token>, p: nat, n: nat)
    requires p <= |ts| < p + n
    requires forall k :: p <= k < |ts| ==> ts[k].UtfTok?
    ensures ReadUtfs(ts, p, n) == Eof
    decreases n
  {
    if p < |ts| {
      ReadUtfsPastEnd(ts, p + 1, n - 1);
    }
  }

  /** A record cut short anywhere, with nothing after it, decodes to `null`. */
  lemma TruncatedRecordYieldsNull(rootId: string, trace: TraceRef, before: seq<Token>,
                                  ts: int, source: string, i: nat, reference: int, fields: seq<string>, cut: nat)
    requires i < NB_TYPES && |fields| == i && cut < 4 + i
    ensures ParseNextEvent(StubTypes(rootId), rootId,
                           TraceStub(trace, before + EncodeRecord(ts, source, i, reference, fields)[..cut]),
                           Some(|before|))
         == NoEvent
  {
    var record := EncodeRecord(ts, source, i, reference, fields);
    var tokens := before + record[..cut];
    var p := |before|;
    if cut >= 1 { assert tokens[p] == record[0]; }
    if cut >= 2 { assert tokens[p + 1] == record[1]; }
    if cut >= 3 { assert tokens[p + 2] == record[2]; }
    if cut >= 4 {
      assert tokens[p + 3] == record[3];
      TypeIndexOfName(i);
      forall k | p + 4 <= k < |tokens|
        ensures tokens[k].UtfTok?
      {
        assert tokens[k] == record[k - p];
        assert record[k - p] == Utfs(fields)[k - p - 4];
      }
      ReadUtfsPastEnd(tokens, p + 4, i);
    }
  }

  /**
   * A well-formed record whose type index is past the table reads all its
   * fields and then fails on the table lookup.
   */
  lemma TypeIndexPastTable(rootId: string, trace: TraceRef, ts: int, source: string, i: nat,
                           reference: int, fields: seq<string>)
    requires NB_TYPES <= i && IsInt(i) && |fields| == i
    ensures ParseNextEvent(StubTypes(rootId), rootId, TraceStub(trace, EncodeRecord(ts, source, i, reference, fields)), None)
         == Failed(ArrayIndexOutOfBounds)
  {
    var tokens := EncodeRecord(ts, source, i, reference, fields);
    assert tokens[0..4 + |fields|] == tokens;
    ReadEncodedRecord(tokens, 0, ts, source, i, reference, fields);
    TypeIndexOfName(i);
    ParseReadRecord(StubTypes(rootId), rootId, trace, tokens, None, ts, source, TypeName(i), reference, i, fields, 4 + i);
  }
}

=== FILE: java_lang.dfy ===
/**
 * Small models of the java.lang facilities the trace-analysis core relies on:
 * nullable references, two's complement wrap-around of `int` and `long`,
 * decimal rendering (`Integer.toString`, `Long.toString`, string concatenation),
 * `Integer.parseInt`, `String.hashCode`, `Long.hashCode`-style folding and the
 * `String` predicates `startsWith` and `contains`.
 */
module JavaLang {

  /** A nullable Java reference: `None` stands for `null`. */
  datatype Option<T> = None | Some(value: T)

  const TWO_32: int := 0x1_0000_0000
  const TWO_64: int := 0x1_0000_0000_0000_0000
  const INT_MIN: int := -0x8000_0000
  const INT_MAX: int := 0x7fff_ffff
  const LONG_MIN: int := -0x8000_0000_0000_0000
  const LONG_MAX: int := 0x7fff_ffff_ffff_ffff

  /** Values representable by a Java `int`. */
  predicate IsInt(x: int) { INT_MIN <= x <= INT_MAX }

  /** Values representable by a Java `long`. */
  predicate IsLong(x: int) { LONG_MIN <= x <= LONG_MAX }

  /** Narrowing to 32 bits: `(int)` casts, `Long.intValue()`, `int` overflow. */
  function Wrap32(x: int): (r: int)
    ensures IsInt(r)
    ensures (r - x) % TWO_32 == 0
    ensures IsInt(x) ==> r == x
  {
    var m := x % TWO_32;
    if m <= INT_MAX then m else m - TWO_32
  }

  /** Narrowing to 64 bits: `long` arithmetic overflow. */
  function Wrap64(x: int): (r: int)
    ensures IsLong(r)
    ensures (r - x) % TWO_64 == 0
    ensures IsLong(x) ==> r == x
  {
    var m := x % TWO_64;
    if m <= LONG_MAX then m else m - TWO_64
  }

  // ---------------------------------------------------------------------------
  // Strings
  // ---------------------------------------------------------------------------

  /** `s.startsWith(prefix)` */
  predicate StartsWith(s: string, prefix: string) {
    |prefix| <= |s| && s[..|prefix|] == prefix
  }

  /** `sub` occurs in `s` at position `i`: the reference meaning of `contains`. */
  ghost predicate OccursAt(s: string, sub: string, i: int) {
    0 <= i && i + |sub| <= |s| && s[i..i + |sub|] == sub
  }

  /** `s.contains(sub)`, computed by sliding over `s`. */
  function Contains(s: string, sub: string): (b: bool)
    ensures b <==> exists i :: OccursAt(s, sub, i)
    decreases |s|
  {
    if StartsWith(s, sub) then
      assert OccursAt(s, sub, 0);
      true
    else if |s| <= |sub| then
      false
    else
      var b := Contains(s[1..], sub);
      assert b ==> exists i :: OccursAt(s, sub, i) by {
        if b {
          var j :| OccursAt(s[1..], sub, j);
          assert s[1..][j..j + |sub|] == s[j + 1..j + 1 + |sub|];
          assert OccursAt(s, sub, j + 1);
        }
      }
      assert (exists i :: OccursAt(s, sub, i)) ==> b by {
        if exists i :: OccursAt(s, sub, i) {
          var i :| OccursAt(s, sub, i);
          assert i != 0;
          assert s[1..][i - 1..i - 1 + |sub|] == s[i..i + |sub|];
          assert OccursAt(s[1..], sub, i - 1);
        }
      }
      b
  }

  /** `parts` joined with `sep` between consecutive parts (`String.join`). */
  function Join(parts: seq<string>, sep: string): string
    decreases |parts|
  {
    if |parts| == 0 then ""
    else if |parts| == 1 then parts[0]
    else parts[0] + sep + Join(parts[1..], sep)
  }

  /** Appending one more part extends the joined string by the separator and the part. */
  lemma {:induction false} JoinSnoc(parts: seq<string>, p: string, sep: string)
    ensures Join(parts + [p], sep) == if |parts| == 0 then p else Join(parts, sep) + sep + p
    decreases |parts|
  {
    if |parts| >= 2 {
      assert (parts + [p])[1..] == parts[1..] + [p];
      JoinSnoc(parts[1..], p, sep);
    } else if |parts| == 1 {
      assert (parts + [p])[1..] == [p];
    }
  }

  // ---------------------------------------------------------------------------
  // Decimal rendering and parsing
  // ---------------------------------------------------------------------------

  predicate IsDigit(c: char) { '0' <= c <= '9' }

  predicate AllDigits(s: string) { forall i :: 0 <= i < |s| ==> IsDigit(s[i]) }

  function DigitChar(d: int): (c: char)
    requires 0 <= d < 10
    ensures IsDigit(c)
  {
    ('0' as int + d) as char
  }

  function DigitValue(c: char): int
    requires IsDigit(c)
  {
    c as int - '0' as int
  }

  /** Decimal digits of a natural number, most significant first, without leading zeros. */
  function NatToDecimal(n: nat): (s: string)
    ensures |s| >= 1 && AllDigits(s)
    ensures s[0] == '0' ==> n == 0
  {
    if n < 10 then [DigitChar(n)] else NatToDecimal(n / 10) + [DigitChar(n % 10)]
  }

  /** Decimal rendering of an integer as Java prints an `int` or `long`. */
  function IntToDecimal(x: int): (s: string)
    ensures |s| >= 1
    ensures s[0] == '-' <==> x < 0
    ensures x >= 0 ==> AllDigits(s)
  {
    if x < 0 then "-" + NatToDecimal(-x) else NatToDecimal(x)
  }

  /** The value of a string of decimal digits. */
  function DigitsValue(s: string): nat
    requires AllDigits(s)
  {
    if |s| == 0 then 0 else DigitsValue(s[..|s| - 1]) * 10 + DigitValue(s[|s| - 1])
  }

  /** Reading back the digits of `n` gives `n`. */
  lemma {:induction false} DigitsValueOfDecimal(n: nat)
    ensures DigitsValue(NatToDecimal(n)) == n
  {
    if n >= 10 {
      var s := NatToDecimal(n);
      assert s[..|s| - 1] == NatToDecimal(n / 10);
      DigitsValueOfDecimal(n / 10);
    }
  }

  /**
   * The numerals `Integer.parseInt` reads in radix 10: an optional `-` or `+`
   * followed by at least one ASCII digit.
   */
  ghost predicate IsNumeral(s: string) {
    if |s| >= 1 && (s[0] == '-' || s[0] == '+') then |s| >= 2 && AllDigits(s[1..])
    else |s| >= 1 && AllDigits(s)
  }

  /** The value a numeral denotes: its digits' value, negated after a `-`. */
  ghost function NumeralValue(s: string): int
    requires IsNumeral(s)
  {
    if s[0] == '-' then -(DigitsValue(s[1..]) as int)
    else if s[0] == '+' then DigitsValue(s[1..])
    else DigitsValue(s)
  }

  /**
   * `Integer.parseInt(s)` in radix 10 over ASCII digits. `None` stands for the
   * `NumberFormatException` thrown on anything that is not a numeral or whose
   * value is outside the `int` range.
   */
  function ParseInt(s: string): (r: Option<int>)
    ensures r.Some? <==> IsNumeral(s) && IsInt(NumeralValue(s))
    ensures r.Some? ==> r.value == NumeralValue(s)
  {
    if |s| == 0 then None
    else
      var digits := if s[0] == '-' || s[0] == '+' then s[1..] else s;
      if |digits| == 0 || !AllDigits(digits) then None
      else
        var v: int := if s[0] == '-' then -(DigitsValue(digits) as int) else DigitsValue(digits);
        if IsInt(v) then Some(v) else None
  }

  /** `Integer.parseInt(Integer.toString(x)) == x`. */
  lemma ParseIntOfDecimal(x: int)
    requires IsInt(x)
    ensures ParseInt(IntToDecimal(x)) == Some(x)
  {
    var s := IntToDecimal(x);
    if x < 0 {
      assert s[1..] == NatToDecimal(-x);
      DigitsValueOfDecimal(-x);
      assert IsNumeral(s) && NumeralValue(s) == x;
    } else {
      assert s == NatToDecimal(x);
      DigitsValueOfDecimal(x);
      assert IsDigit(s[0]);
      assert IsNumeral(s) && NumeralValue(s) == x;
    }
  }

  // ---------------------------------------------------------------------------
  // Hash codes
  // ---------------------------------------------------------------------------

  /**
   * The UTF-16 code units of one character, as a Java `String` stores it: one
   * unit up to U+FFFF, a high and a low surrogate above.
   */
  function Utf16(c: char): (u: seq<int>)
    ensures |u| == (if c as int < 0x1_0000 then 1 else 2)
    ensures forall k :: 0 <= k < |u| ==> 0 <= u[k] < 0x1_0000
  {
    var v := c as int;
    if v < 0x1_0000 then [v]
    else [0xD800 + (v - 0x1_0000) / 0x400, 0xDC00 + (v - 0x1_0000) % 0x400]
  }

  /** The UTF-16 code units of a string, in order. */
  function Utf16Units(s: string): seq<int> {
    if |s| == 0 then [] else Utf16Units(s[..|s| - 1]) + Utf16(s[|s| - 1])
  }

  /** The exact polynomial u[0]*31^(n-1) + ... + u[n-1], without wrap-around. */
  ghost function Poly31(u: seq<int>): int {
    if |u| == 0 then 0 else 31 * Poly31(u[..|u| - 1]) + u[|u| - 1]
  }

  /** Two integers congruent modulo 2^32 narrow to the same `int`. */
  lemma Wrap32Congruent(x: int, y: int)
    requires (x - y) % TWO_32 == 0
    ensures Wrap32(x) == Wrap32(y)
  {
    var k := (x - y) / TWO_32;
    assert x == y + k * TWO_32;
    assert x % TWO_32 == y % TWO_32;
  }

  /** The fold h = 31 * h + u over code units in `int` arithmetic. */
  function HashUnits(u: seq<int>): (h: int)
    ensures h == Wrap32(Poly31(u))
  {
    if |u| == 0 then 0
    else
      var prev := HashUnits(u[..|u| - 1]);
      var h := Wrap32(31 * prev + u[|u| - 1]);
      var d := (prev - Poly31(u[..|u| - 1])) / TWO_32;
      assert prev - Poly31(u[..|u| - 1]) == d * TWO_32;
      assert (31 * prev + u[|u| - 1]) - Poly31(u) == (31 * d) * TWO_32;
      Wrap32Congruent(31 * prev + u[|u| - 1], Poly31(u));
      h
  }

  /**
   * `String.hashCode()`: s[0]*31^(n-1) + ... + s[n-1] over the UTF-16 code
   * units, narrowed to `int`.
   */
  function StringHash(s: string): (h: int)
    ensures IsInt(h)
    ensures h == Wrap32(Poly31(Utf16Units(s)))
    ensures |s| == 0 ==> h == 0
  {
    HashUnits(Utf16Units(s))
  }

  /** A character outside the BMP hashes through its surrogate pair. */
  lemma SupplementaryCharHash()
    ensures Utf16Units("\U{1F600}") == [0xD83D, 0xDE00]
    ensures StringHash("\U{1F600}") == 31 * 0xD83D + 0xDE00 == 1772899
  {
    assert "\U{1F600}"[..0] == [];
  }

  /** The two's complement bit pattern of a `long`. */
  function LongBits(x: int): bv64
    requires IsLong(x)
  {
    (if x < 0 then x + TWO_64 else x) as bv64
  }

  /** `(int) (x ^ (x >>> 32))`, the hash of a `long` field. */
  function LongHash(x: int): (h: int)
    requires IsLong(x)
    ensures IsInt(h)
  {
    var b := LongBits(x);
    Wrap32(((b ^ (b >> 32)) & 0xffff_ffff) as int)
  }
}

=== FILE: latency_analysis.dfy ===
/**
 * The system call latency builder: a request that reads kernel trace events in
 * order, keeps the entry half of every ongoing system call per thread, and
 * turns each matching exit into a finished `SystemCall` appended to the store.
 */
module LatencyAnalysis {
  import opened JavaLang
  import opened TimeRangeStore
  import opened SystemCalls
  import opened EventLayout

  /** The value of an event field: a `Long`, any other object with its `toString`, or `null`. */
  datatype FieldValue = LongValue(l: int) | OtherValue(text: string) | NullValue

  /** `toString` of a non-null field value. */
  function Render(v: FieldValue): string
    requires !v.NullValue?
  {
    match v
    case LongValue(l) => IntToDecimal(l)
    case OtherValue(t) => t
  }

  /** Some field of the content holds `null`. */
  predicate HasNullValue(fields: seq<(string, FieldValue)>) {
    exists i :: 0 <= i < |fields| && fields[i].1.NullValue?
  }

  /**
   * What the request reads from a trace event: the type name, the timestamp
   * value, the thread id the TID aspect resolves (`None` when it resolves to
   * `null`) and the content fields in order.
   */
  datatype KernelEvent = KernelEvent(
    name: string,
    timestamp: int,
    tid: Option<int>,
    fields: seq<(string, FieldValue)>)

  /** The request's state: its layout, the ongoing system calls per thread, and the shared store. */
  datatype Request = Request(layout: Layout, ongoing: map<int, InitialInfo>, syscalls: Store<SystemCall>)

  /** The exceptions `handleData` can raise. */
  datatype Fault =
    | NameShorterThanEntryPrefix  // `substring` past the end of the name
    | NullArgument                // `toString` of a `null` field value while building the arguments
    | NoRetField                  // `getField("ret")` is `null`
    | RetNotLong                  // the cast to `Long` fails
    | NullRet                     // the "ret" value is `null`, so `intValue` throws

  /** The faults raised on an exit event, after its entry was removed. */
  predicate AtExit(f: Fault) {
    f == NoRetField || f == RetNotLong || f == NullRet
  }

  /** The request after an event: carried on, or stopped by an exception. */
  datatype Outcome = Done(req: Request) | Failed(req: Request, fault: Fault)

  /** A new request: nothing ongoing, appending to the store it is given. */
  function NewRequest(layout: Layout, syscalls: Store<SystemCall>): Request {
    Request(layout, map[], syscalls)
  }

  /** The entry test: the name starts with the entry or the compat entry prefix. */
  predicate IsEntry(layout: Layout, name: string) {
    StartsWith(name, layout.syscallEntryPrefix) || StartsWith(name, layout.compatSyscallEntryPrefix)
  }

  /** The exit test, which is only reached when the entry test fails. */
  predicate IsExit(layout: Layout, name: string) {
    !IsEntry(layout, name) && StartsWith(name, layout.syscallExitPrefix)
  }

  /** `getField(name)`: the first field with that name. */
  function GetField(fields: seq<(string, FieldValue)>, name: string): (r: Option<FieldValue>)
    ensures r.Some? ==> exists i :: 0 <= i < |fields| && fields[i] == (name, r.value)
    ensures r.None? ==> forall i :: 0 <= i < |fields| ==> fields[i].0 != name
  {
    if |fields| == 0 then None
    else if fields[0].0 == name then Some(fields[0].1)
    else
      var r := GetField(fields[1..], name);
      assert r.Some? ==> fields[1..][0] in fields[1..];
      r
  }

  /**
   * The argument map built from the content: every field name with its value's
   * text, or `None` for the `NullPointerException` a `null` value raises.
   */
  function Arguments(fields: seq<(string, FieldValue)>): (args: Option<seq<(string, string)>>)
    ensures args.None? <==> HasNullValue(fields)
    ensures args.Some? ==> |args.value| == |fields|
    ensures args.Some? ==> forall i :: 0 <= i < |fields| ==>
              !fields[i].1.NullValue? && args.value[i] == (fields[i].0, Render(fields[i].1))
  {
    if HasNullValue(fields) then None
    else Some(seq(|fields|, i requires 0 <= i < |fields| && !fields[i].1.NullValue? => (fields[i].0, Render(fields[i].1))))
  }

  /** The "ret" field of an event's content. */
  function RetField(e: KernelEvent): Option<FieldValue> {
    GetField(e.fields, "ret")
  }

  /** The "ret" field exists and holds a `Long`. */
  predicate HasLongRet(e: KernelEvent) {
    RetField(e).Some? && RetField(e).value.LongValue?
  }

  /** One from an exit event: 1 when it closes an ongoing system call, 0 otherwise. */
  function ClosesEntry(layout: Layout, open: set<int>, e: KernelEvent): nat {
    if IsExit(layout, e.name) && e.tid.Some? && e.tid.value in open then 1 else 0
  }

  /** The threads with an ongoing system call after an event, ignoring payloads. */
  function OpenAfter(layout: Layout, open: set<int>, e: KernelEvent): set<int> {
    if e.tid.None? then open
    else if IsEntry(layout, e.name) then open + {e.tid.value}
    else if IsExit(layout, e.name) then open - {e.tid.value}
    else open
  }

  /** `handleData` for an entry event with a resolved thread id. */
  function HandleEntry(req: Request, e: KernelEvent, tid: int): Outcome {
    var cut := |req.layout.syscallEntryPrefix|;
    if |e.name| < cut then Failed(req, NameShorterThanEntryPrefix)
    else match Arguments(e.fields)
      case None => Failed(req, NullArgument)
      case Some(args) =>
        var info := InitialInfo(e.timestamp, e.name[cut..], args);
        Done(req.(ongoing := req.ongoing[tid := info]))
  }

  /** `handleData` for an exit event with a resolved thread id. */
  function HandleExit(req: Request, e: KernelEvent, tid: int): Outcome {
    if tid !in req.ongoing then Done(req)
    else
      var info := req.ongoing[tid];
      var removed := req.(ongoing := req.ongoing - {tid});
      match RetField(e)
      case None => Failed(removed, NoRetField)
      case Some(OtherValue(_)) => Failed(removed, RetNotLong)
      case Some(NullValue) => Failed(removed, NullRet)
      case Some(LongValue(l)) =>
        Done(removed.(syscalls := AddValue(req.syscalls, NewSystemCall(info, e.timestamp, Wrap32(l)))))
  }

  /** `handleData`: the effect of one event on the request. */
  function HandleData(req: Request, e: KernelEvent): (r: Outcome)
    ensures r.req.layout == req.layout
    // events that are neither entries nor exits, or whose thread is unknown, change nothing
    ensures !IsEntry(req.layout, e.name) && !IsExit(req.layout, e.name) ==> r == Done(req)
    ensures e.tid.None? ==> r == Done(req)
    // the store only ever grows at its end, by at most one system call
    ensures |req.syscalls.entries| <= |r.req.syscalls.entries| <= |req.syscalls.entries| + 1
    ensures r.req.syscalls.entries[..|req.syscalls.entries|] == req.syscalls.entries
    ensures r.Done? ==> |r.req.syscalls.entries|
                        == |req.syscalls.entries| + ClosesEntry(req.layout, req.ongoing.Keys, e)
    ensures r.Failed? ==> r.req.syscalls == req.syscalls
    ensures Valid(req.syscalls) ==> Valid(r.req.syscalls)
    // the appended system call pairs the ongoing entry with this exit
    ensures |r.req.syscalls.entries| > |req.syscalls.entries| ==>
              e.tid.Some? && e.tid.value in req.ongoing && HasLongRet(e) &&
              r.req.syscalls.entries[|req.syscalls.entries|]
              == NewSystemCall(req.ongoing[e.tid.value], e.timestamp, Wrap32(RetField(e).value.l))
    // ongoing entries: the exit's thread is closed, the entry's thread (re)opened
    ensures r.Done? ==> r.req.ongoing.Keys == OpenAfter(req.layout, req.ongoing.Keys, e)
    ensures r.Done? && IsEntry(req.layout, e.name) && e.tid.Some? ==>
              |e.name| >= |req.layout.syscallEntryPrefix| && Arguments(e.fields).Some? &&
              r.req.ongoing == req.ongoing[e.tid.value := InitialInfo(
                e.timestamp, e.name[|req.layout.syscallEntryPrefix|..], Arguments(e.fields).value)]
    ensures r.Done? && IsExit(req.layout, e.name) && e.tid.Some? ==>
              r.req.ongoing == req.ongoing - {e.tid.value}
    ensures forall t :: t in r.req.ongoing ==>
              (t in req.ongoing && r.req.ongoing[t] == req.ongoing[t]) || r.req.ongoing[t].startTime == e.timestamp
    // the error cases
    ensures r == Failed(req, NameShorterThanEntryPrefix) <==>
              IsEntry(req.layout, e.name) && e.tid.Some? && |e.name| < |req.layout.syscallEntryPrefix|
    ensures r == Failed(req, NullArgument) <==>
              IsEntry(req.layout, e.name) && e.tid.Some? && |e.name| >= |req.layout.syscallEntryPrefix| &&
              HasNullValue(e.fields)
    ensures r.Failed? && AtExit(r.fault) <==>
              IsExit(req.layout, e.name) && e.tid.Some? && e.tid.value in req.ongoing &&
              !HasLongRet(e)
    ensures r.Failed? && r.fault == NullRet <==>
              IsExit(req.layout, e.name) && e.tid.Some? && e.tid.value in req.ongoing &&
              RetField(e) == Some(NullValue)
    // the entry is removed before "ret" is read, so a bad "ret" still closes the thread
    ensures r.Failed? && AtExit(r.fault) ==>
              e.tid.Some? && r.req.ongoing == req.ongoing - {e.tid.value}
  {
    if IsEntry(req.layout, e.name) then
      if e.tid.None? then Done(req) else HandleEntry(req, e, e.tid.value)
    else if StartsWith(e.name, req.layout.syscallExitPrefix) then
      if e.tid.None? then Done(req) else HandleExit(req, e, e.tid.value)
    else Done(req)
  }

  /** The request consuming `events` in order; an exception ends the request. */
  function Run(req: Request, events: seq<KernelEvent>): Outcome
    decreases |events|
  {
    if |events| == 0 then Done(req)
    else
      match HandleData(req, events[0])
      case Done(next) => Run(next, events[1..])
      case Failed(q, f) => Failed(q, f)
  }

  /** `handleCompleted`: the ongoing map is cleared; the store keeps what was appended. */
  function HandleCompleted(req: Request): (r: Request)
    ensures r.ongoing == map[]
    ensures r.layout == req.layout && r.syscalls == req.syscalls
  {
    req.(ongoing := map[])
  }

  /** The number of exits in `events` that close an ongoing system call, from threads `open`. */
  function MatchedExits(layout: Layout, open: set<int>, events: seq<KernelEvent>): nat
    decreases |events|
  {
    if |events| == 0 then 0
    else ClosesEntry(layout, open, events[0]) + MatchedExits(layout, OpenAfter(layout, open, events[0]), events[1..])
  }

  /** The threads left with an ongoing system call after `events`. */
  function OpenAfterAll(layout: Layout, open: set<int>, events: seq<KernelEvent>): set<int>
    decreases |events|
  {
    if |events| == 0 then open else OpenAfterAll(layout, OpenAfter(layout, open, events[0]), events[1..])
  }

  /**
   * Over any event sequence the request keeps what the store held before and
   * keeps it consistent, and appends at most one system call per exit that
   * finds an ongoing entry for its thread. When no `handleData` throws, it
   * appends exactly that many and leaves ongoing exactly the threads whose
   * last entry was not yet closed.
   */
  lemma {:induction false} RunAppendsMatchedExits(req: Request, events: seq<KernelEvent>)
    ensures var out := Run(req, events);
      out.req.layout == req.layout &&
      |req.syscalls.entries| <= |out.req.syscalls.entries| &&
      out.req.syscalls.entries[..|req.syscalls.entries|] == req.syscalls.entries &&
      (Valid(req.syscalls) ==> Valid(out.req.syscalls)) &&
      |out.req.syscalls.entries| <= |req.syscalls.entries| + MatchedExits(req.layout, req.ongoing.Keys, events)
    ensures var out := Run(req, events);
      out.Done? ==>
        |out.req.syscalls.entries| == |req.syscalls.entries| + MatchedExits(req.layout, req.ongoing.Keys, events) &&
        out.req.ongoing.Keys == OpenAfterAll(req.layout, req.ongoing.Keys, events)
    decreases |events|
  {
    if |events| > 0 {
      var out0 := HandleData(req, events[0]);
      if out0.Done? {
        var next := out0.req;
        RunAppendsMatchedExits(next, events[1..]);
        var r := Run(req, events).req;
        assert r.syscalls.entries[..|next.syscalls.entries|] == next.syscalls.entries;
        assert r.syscalls.entries[..|req.syscalls.entries|]
            == next.syscalls.entries[..|req.syscalls.entries|];
      } else {
        assert Run(req, events) == out0;
      }
    }
  }

  /** A finished system call whose times are ordered, inside the `long` range, with its true duration. */
  predicate WellTimed(c: SystemCall) {
    0 <= GetStartTime(c) <= GetEndTime(c) <= LONG_MAX && GetDuration(c) == GetEndTime(c) - GetStartTime(c)
  }

  predicate AllWellTimed(calls: seq<SystemCall>) {
    forall i :: 0 <= i < |calls| ==> WellTimed(calls[i])
  }

  /** Timestamps never decrease along the trace. */
  predicate NonDecreasingTimes(events: seq<KernelEvent>) {
    forall i, j :: 0 <= i <= j < |events| ==> events[i].timestamp <= events[j].timestamp
  }

  /**
   * On a trace whose timestamps never decrease and lie in `[since, LONG_MAX]`,
   * with every ongoing entry started in `[0, since]`, every system call the
   * request appends (up to an exception, if any) has a non-negative duration
   * equal to its end time minus its start time.
   */
  lemma {:induction false} DurationsNonNegative(req: Request, events: seq<KernelEvent>, since: int)
    requires 0 <= since
    requires NonDecreasingTimes(events)
    requires forall i :: 0 <= i < |events| ==> since <= events[i].timestamp <= LONG_MAX
    requires forall t :: t in req.ongoing ==> 0 <= req.ongoing[t].startTime <= since
    requires AllWellTimed(req.syscalls.entries)
    ensures AllWellTimed(Run(req, events).req.syscalls.entries)
    decreases |events|
  {
    if |events| > 0 {
      var e := events[0];
      var out := HandleData(req, e);
      var next := out.req;
      var n := |req.syscalls.entries|;
      forall i | 0 <= i < |next.syscalls.entries|
        ensures WellTimed(next.syscalls.entries[i])
      {
        if i < n {
          assert next.syscalls.entries[i] == next.syscalls.entries[..n][i];
        }
      }
      if out.Done? {
        forall t | t in next.ongoing
          ensures 0 <= next.ongoing[t].startTime <= e.timestamp
        {
        }
        assert forall i :: 0 <= i < |events[1..]| ==> e.timestamp <= events[1..][i].timestamp <= LONG_MAX
          by { assert forall i :: 0 <= i < |events[1..]| ==> events[1..][i] == events[i + 1]; }
        DurationsNonNegative(next, events[1..], e.timestamp);
      }
    }
  }

  /**
   * Building from an empty store and completing the request: the store stays
   * consistent and holds at most one system call per matched exit, exactly
   * one when no `handleData` threw; entries never closed are dropped with the
   * ongoing map instead of reaching the store.
   */
  lemma CompletedStoreHoldsMatchedExits(layout: Layout, events: seq<KernelEvent>)
    ensures var out := Run(NewRequest(layout, NewStore()), events);
      var r := HandleCompleted(out.req);
      Valid(r.syscalls) &&
      GetNbElements(r.syscalls) <= MatchedExits(layout, {}, events) &&
      (out.Done? ==> GetNbElements(r.syscalls) == MatchedExits(layout, {}, events)) &&
      r.ongoing == map[]
  {
    var req: Request := NewRequest(layout, NewStore());
    assert req.ongoing.Keys == {};
    RunAppendsMatchedExits(req, events);
  }

  /**
   * A compat entry is cut after as many characters as the plain entry prefix
   * has, so `compat_syscall_entry_read` is recorded as `_entry_read`.
   */
  lemma CompatEntryNameCut()
    ensures var e := KernelEvent("compat_syscall_entry_read", 7, Some(1), []);
      HandleData(NewRequest(Lttng26(), NewStore()), e).req.ongoing[1].name == "_entry_read"
  {
    var e := KernelEvent("compat_syscall_entry_read", 7, Some(1), []);
    assert StartsWith(e.name, Lttng26().compatSyscallEntryPrefix);
    assert e.name[14..] == "_entry_read";
  }

  /** The scenario's entry to `read` on thread 1 opens it, whatever else is open. */
  lemma ScenarioEnterRead(r: Request)
    requires r.layout == Lttng26()
    ensures HandleData(r, KernelEvent("syscall_entry_read", 100, Some(1), [("fd", LongValue(3))]))
         == Done(r.(ongoing := r.ongoing[1 := InitialInfo(100, "read", [("fd", "3")])]))
  {
    var e := KernelEvent("syscall_entry_read", 100, Some(1), [("fd", LongValue(3))]);
    assert StartsWith(e.name, r.layout.syscallEntryPrefix);
    assert e.name[14..] == "read";
    assert IntToDecimal(3) == "3";
    assert Render(LongValue(3)) == "3";
    assert !HasNullValue(e.fields) by { assert e.fields == [("fd", LongValue(3))]; }
    var a := Arguments(e.fields);
    assert a.Some? && |a.value| == 1 && a.value[0] == ("fd", "3");
    assert a.value == [("fd", "3")];
  }

  /** The scenario's exit from `read` on thread 2, which has nothing open, changes nothing. */
  lemma ScenarioUnmatchedExit(r: Request)
    requires r.layout == Lttng26() && 2 !in r.ongoing
    ensures HandleData(r, KernelEvent("syscall_exit_read", 120, Some(2), [("ret", LongValue(0))])) == Done(r)
  {
    var e := KernelEvent("syscall_exit_read", 120, Some(2), [("ret", LongValue(0))]);
    EntryAndExitPrefixesExclusive(e.name);
    CompatEntryIsNotPlainEntry(e.name);
    assert !StartsWith(e.name, r.layout.compatSyscallEntryPrefix);
    assert StartsWith(e.name, r.layout.syscallExitPrefix);
  }

  /** The scenario's entry to `openat` on thread 3 opens it with no arguments. */
  lemma ScenarioEnterOpenat(r: Request)
    requires r.layout == Lttng26()
    ensures HandleData(r, KernelEvent("syscall_entry_openat", 130, Some(3), []))
         == Done(r.(ongoing := r.ongoing[3 := InitialInfo(130, "openat", [])]))
  {
    var e := KernelEvent("syscall_entry_openat", 130, Some(3), []);
    assert StartsWith(e.name, r.layout.syscallEntryPrefix);
    assert e.name[14..] == "openat";
    assert Arguments(e.fields) == Some([]);
  }

  /** The scenario's exit from `read` on thread 1 closes it and stores the call with "ret" narrowed to 5. */
  lemma ScenarioExitRead(r: Request)
    requires r.layout == Lttng26() && 1 in r.ongoing
    ensures HandleData(r, KernelEvent("syscall_exit_read", 150, Some(1), [("ret", LongValue(TWO_32 + 5))]))
         == Done(r.(ongoing := r.ongoing - {1}, syscalls := AddValue(r.syscalls, NewSystemCall(r.ongoing[1], 150, 5))))
  {
    var e := KernelEvent("syscall_exit_read", 150, Some(1), [("ret", LongValue(TWO_32 + 5))]);
    EntryAndExitPrefixesExclusive(e.name);
    CompatEntryIsNotPlainEntry(e.name);
    assert !StartsWith(e.name, r.layout.compatSyscallEntryPrefix);
    assert StartsWith(e.name, r.layout.syscallExitPrefix);
    assert Wrap32(TWO_32 + 5) == 5;
    assert RetField(e) == Some(LongValue(TWO_32 + 5));
  }

  /**
   * A short trace: thread 1 enters and leaves `read`, thread 2 leaves a call
   * whose entry was never seen, thread 3 enters `openat` and never leaves.
   * The return value is a `long` past the `int` range and is narrowed.
   */
  lemma LatencyScenario()
    ensures var events := [
        KernelEvent("syscall_entry_read", 100, Some(1), [("fd", LongValue(3))]),
        KernelEvent("syscall_exit_read", 120, Some(2), [("ret", LongValue(0))]),
        KernelEvent("syscall_entry_openat", 130, Some(3), []),
        KernelEvent("syscall_exit_read", 150, Some(1), [("ret", LongValue(TWO_32 + 5))])];
      var out := Run(NewRequest(Lttng26(), NewStore()), events);
      out.Done? &&
      out.req.ongoing.Keys == {3} &&
      out.req.syscalls.entries == [SystemCall(InitialInfo(100, "read", [("fd", "3")]), 150, 5, 50)] &&
      HandleCompleted(out.req).ongoing == map[]
  {
    var e0 := KernelEvent("syscall_entry_read", 100, Some(1), [("fd", LongValue(3))]);
    var e1 := KernelEvent("syscall_exit_read", 120, Some(2), [("ret", LongValue(0))]);
    var e2 := KernelEvent("syscall_entry_openat", 130, Some(3), []);
    var e3 := KernelEvent("syscall_exit_read", 150, Some(1), [("ret", LongValue(TWO_32 + 5))]);
    var events := [e0, e1, e2, e3];
    var r0 := NewRequest(Lttng26(), NewStore());
    var r1 := r0.(ongoing := map[1 := InitialInfo(100, "read", [("fd", "3")])]);
    var r3 := r1.(ongoing := r1.ongoing[3 := InitialInfo(130, "openat", [])]);
    var call := NewSystemCall(InitialInfo(100, "read", [("fd", "3")]), 150, 5);
    var r4 := r3.(ongoing := r3.ongoing - {1}, syscalls := AddValue(r3.syscalls, call));
    ScenarioEnterRead(r0);
    assert r0.ongoing[1 := InitialInfo(100, "read", [("fd", "3")])] == r1.ongoing;
    ScenarioUnmatchedExit(r1);
    ScenarioEnterOpenat(r1);
    ScenarioExitRead(r3);
    assert call == SystemCall(InitialInfo(100, "read", [("fd", "3")]), 150, 5, 50);
    assert r4.ongoing.Keys == {3};
    assert r4.syscalls.entries == [call];
    assert events[1..] == [e1, e2, e3] && events[1..][1..] == [e2, e3] && events[1..][1..][1..] == [e3];
    assert Run(r4, []) == Done(r4);
    assert Run(r3, [e3]) == Done(r4);
    assert Run(r1, [e2, e3]) == Done(r4);
    assert Run(r1, [e1, e2, e3]) == Done(r4);
    assert Run(r0, events) == Done(r4);
  }
}

=== FILE: sd_events.dfy ===
/**
 * Sequence-diagram events: the recogniser that turns a trace event into a
 * message between two lifelines, and the filter criteria that hide messages
 * or lifelines.
 */
module SdEvents {
  import opened JavaLang
  import opened TmfEvents

  /**
   * The keywords the recogniser looks for: the SEND and RECEIVE markers of the
   * event type text, and the names of the sender, receiver and signal fields.
   * They are externalised message constants, so they are parameters here.
   */
  datatype SdKeywords = SdKeywords(
    send: string,
    receive: string,
    senderField: string,
    receiverField: string,
    signalField: string)

  /** A message between two lifelines, with the trace event it came from. */
  datatype SdEvent = SdEvent(event: Event, sender: string, receiver: string, name: string)

  /** The recogniser's answer: a message, `null`, or a `NullPointerException`. */
  datatype Recognised = IsSd(sd: SdEvent) | NotSd | NullPointer

  /** `getField(name)` on a content root: the first subfield with that name. */
  function SubField(root: EventField, name: string): (r: Option<EventField>)
    ensures r.Some? ==> r.value in root.subfields && r.value.name == name
    ensures r.None? ==> forall f :: f in root.subfields ==> f.name != name
  {
    FirstNamed(root.subfields, name)
  }

  function FirstNamed(fields: seq<EventField>, name: string): (r: Option<EventField>)
    ensures r.Some? ==> r.value in fields && r.value.name == name
    ensures r.None? ==> forall f :: f in fields ==> f.name != name
  {
    if |fields| == 0 then None
    else if fields[0].name == name then Some(fields[0])
    else
      var r := FirstNamed(fields[1..], name);
      assert forall f :: f in fields ==> f == fields[0] || f in fields[1..];
      r
  }

  /** The type text names a send or a receive event. */
  ghost predicate IsMessageType(text: string, kw: SdKeywords) {
    (exists i :: OccursAt(text, kw.send, i)) || (exists i :: OccursAt(text, kw.receive, i))
  }

  /** The content has the three fields, each with a value. */
  predicate HasMessageFields(content: EventField, kw: SdKeywords) {
    var s := SubField(content, kw.senderField);
    var r := SubField(content, kw.receiverField);
    var n := SubField(content, kw.signalField);
    s.Some? && r.Some? && n.Some? && s.value.value.Some? && r.value.value.Some? && n.value.value.Some?
  }

  /**
   * `getSequnceDiagramEvent`: a message when the type text contains the SEND
   * or RECEIVE keyword and the content has sender, receiver and signal
   * fields; `null` otherwise. `typeText` is the type's `toString`.
   */
  function GetSequenceDiagramEvent(e: Event, kw: SdKeywords, typeText: EventType -> string): (r: Recognised)
    ensures r.IsSd? <==>
              e.eventType.Some? && IsMessageType(typeText(e.eventType.value), kw) &&
              e.content.Some? && HasMessageFields(e.content.value, kw)
    ensures r.IsSd? ==>
              r.sd.event == e &&
              Some(r.sd.sender) == SubField(e.content.value, kw.senderField).value.value &&
              Some(r.sd.receiver) == SubField(e.content.value, kw.receiverField).value.value &&
              Some(r.sd.name) == SubField(e.content.value, kw.signalField).value.value
    ensures r == NotSd <==>
              e.eventType.Some? &&
              (!IsMessageType(typeText(e.eventType.value), kw) ||
               (e.content.Some? &&
                (SubField(e.content.value, kw.senderField).None? ||
                 SubField(e.content.value, kw.receiverField).None? ||
                 SubField(e.content.value, kw.signalField).None?)))
  {
    if e.eventType.None? then NullPointer
    else
      var text := typeText(e.eventType.value);
      if !(Contains(text, kw.send) || Contains(text, kw.receive)) then NotSd
      else if e.content.None? then NullPointer
      else
        var s := SubField(e.content.value, kw.senderField);
        var r := SubField(e.content.value, kw.receiverField);
        var n := SubField(e.content.value, kw.signalField);
        if s.None? || r.None? || n.None? then NotSd
        else if s.value.value.None? || r.value.value.None? || n.value.value.None? then NullPointer
        else IsSd(SdEvent(e, s.value.value.value, r.value.value.value, n.value.value.value))
  }

  /**
   * A filter criterion: whether it is active, whether it applies to messages
   * and to lifelines, and the expression it matches names against.
   */
  datatype FilterCriteria = FilterCriteria(
    active: bool,
    syncMessageSelected: bool,
    lifeLineSelected: bool,
    expression: string)

  /** `filterMessage`: some active message criterion matches the message name. */
  function FilterMessage(criteria: Option<seq<FilterCriteria>>, sd: SdEvent,
                         matches: (string, string) -> bool): (hidden: bool)
    ensures hidden <==> (criteria.Some? && (exists i :: 0 <= i < |criteria.value| && criteria.value[i].active
                                                  && criteria.value[i].syncMessageSelected
                                                  && matches(criteria.value[i].expression, sd.name)))
  {
    criteria.Some? && AnyMatches(criteria.value, sd.name, false, matches)
  }

  /** `filterLifeLine`: some active lifeline criterion matches the name. */
  function FilterLifeLine(criteria: Option<seq<FilterCriteria>>, lifeline: string,
                          matches: (string, string) -> bool): (hidden: bool)
    ensures hidden <==> (criteria.Some? && (exists i :: 0 <= i < |criteria.value| && criteria.value[i].active
                                                  && criteria.value[i].lifeLineSelected
                                                  && matches(criteria.value[i].expression, lifeline)))
  {
    criteria.Some? && AnyMatches(criteria.value, lifeline, true, matches)
  }

  /** The loop over the criteria that returns on the first active, selected, matching one. */
  function AnyMatches(criteria: seq<FilterCriteria>, name: string, forLifelines: bool,
                      matches: (string, string) -> bool): (b: bool)
    ensures b <==> (exists i :: 0 <= i < |criteria| && criteria[i].active
                     && (if forLifelines then criteria[i].lifeLineSelected else criteria[i].syncMessageSelected)
                     && matches(criteria[i].expression, name))
  {
    if |criteria| == 0 then false
    else
      var c := criteria[0];
      if c.active && (if forLifelines then c.lifeLineSelected else c.syncMessageSelected) && matches(c.expression, name)
      then true
      else
        var b := AnyMatches(criteria[1..], name, forLifelines, matches);
        assert forall i :: 1 <= i < |criteria| ==> criteria[i] == criteria[1..][i - 1];
        b
  }
}

=== FILE: sd_indexing.dfy ===
/**
 * The sequence-diagram loader's indexing request: one pass over the whole
 * trace that counts the sequence-diagram events, records one checkpoint (the
 * time range of a page) per block of 10000 of them, and keeps the first page
 * of events for display.
 */
module SdIndexing {
  import opened JavaLang
  import opened SdEvents

  /** The maximum number of messages on a page. */
  const MAX_NUM_OF_MSG: nat := 10000

  /** A closed time range; a checkpoint is the range of one page. */
  datatype TimeRange = TimeRange(start: int, end: int)

  /**
   * What the index request uses of one trace event: its timestamp value and
   * the recogniser's answer (`None` when it is `null`).
   */
  datatype Observation = Observation(time: int, sd: Option<SdEvent>)

  /**
   * The index request's fields, the checkpoint list it appends to, and the
   * arguments of every call it makes to `fillCurrentPage`, in order.
   */
  datatype IndexState = IndexState(
    firstTime: Option<int>,
    lastTime: Option<int>,
    nbSeqEvents: int,
    sdEvents: seq<SdEvent>,
    checkpoints: seq<TimeRange>,
    fills: seq<seq<SdEvent>>)

  /** A new index request appending to the loader's checkpoint list. */
  function NewIndexState(checkpoints: seq<TimeRange>): IndexState {
    IndexState(None, None, 0, [], checkpoints, [])
  }

  /** `handleData` of the index request; the counter is a Java `int` and wraps. */
  function IndexData(st: IndexState, o: Observation): IndexState {
    if o.sd.None? then st
    else
      var n := Wrap32(st.nbSeqEvents + 1);
      var first := if st.firstTime.None? then o.time else st.firstTime.value;
      var full := n % MAX_NUM_OF_MSG == 0;
      var counted := st.(
        nbSeqEvents := n,
        firstTime := if full then None else Some(first),
        lastTime := Some(o.time),
        checkpoints := if full then st.checkpoints + [TimeRange(first, o.time)] else st.checkpoints);
      if n > MAX_NUM_OF_MSG then counted
      else
        var page := st.sdEvents + [o.sd.value];
        counted.(sdEvents := page, fills := if n == MAX_NUM_OF_MSG then st.fills + [page] else st.fills)
  }

  /** `handleSuccess` of the index request. */
  function IndexSuccess(st: IndexState): IndexState {
    st.(
      checkpoints := if st.firstTime.Some? && st.lastTime.Some?
                     then st.checkpoints + [TimeRange(st.firstTime.value, st.lastTime.value)]
                     else st.checkpoints,
      fills := if st.nbSeqEvents <= MAX_NUM_OF_MSG then st.fills + [st.sdEvents] else st.fills)
  }

  /** The request after the events of `obs`, in order. */
  function IndexAll(st: IndexState, obs: seq<Observation>): IndexState
    decreases |obs|
  {
    if |obs| == 0 then st else IndexData(IndexAll(st, obs[..|obs| - 1]), obs[|obs| - 1])
  }

  // ---------------------------------------------------------------------------
  // The reference description: the sequence-diagram events and their times
  // ---------------------------------------------------------------------------

  /** The times of the sequence-diagram events of `obs`, in order. */
  function HitTimes(obs: seq<Observation>): (ts: seq<int>)
    ensures |ts| == |HitEvents(obs)|
    decreases |obs|
  {
    if |obs| == 0 then []
    else
      var init := HitTimes(obs[..|obs| - 1]);
      var o := obs[|obs| - 1];
      if o.sd.Some? then init + [o.time] else init
  }

  /** The sequence-diagram events of `obs`, in order. */
  function HitEvents(obs: seq<Observation>): seq<SdEvent>
    decreases |obs|
  {
    if |obs| == 0 then []
    else
      var init := HitEvents(obs[..|obs| - 1]);
      var o := obs[|obs| - 1];
      if o.sd.Some? then init + [o.sd.value] else init
  }

  function Min(a: int, b: int): int { if a <= b then a else b }

  /** Checkpoint `k` of a pass over events with times `ts`: the first and last time of block `k`. */
  function BlockRange(ts: seq<int>, k: nat): TimeRange
    requires k * MAX_NUM_OF_MSG < |ts|
  {
    TimeRange(ts[k * MAX_NUM_OF_MSG], ts[Min((k + 1) * MAX_NUM_OF_MSG, |ts|) - 1])
  }

  /** The state after `m` sequence-diagram events with times `ts` and list `evs`, before success. */
  ghost predicate IndexedSoFar(st: IndexState, ts: seq<int>, evs: seq<SdEvent>) {
    var m := |ts|;
    |evs| == m &&
    st.nbSeqEvents == m &&
    |st.checkpoints| == m / MAX_NUM_OF_MSG &&
    (forall k :: 0 <= k < |st.checkpoints| ==> st.checkpoints[k] == BlockRange(ts, k)) &&
    st.firstTime == (if m % MAX_NUM_OF_MSG == 0 then None else Some(ts[(m / MAX_NUM_OF_MSG) * MAX_NUM_OF_MSG])) &&
    st.lastTime == (if m == 0 then None else Some(ts[m - 1])) &&
    st.sdEvents == evs[..Min(m, MAX_NUM_OF_MSG)] &&
    st.fills == (if m >= MAX_NUM_OF_MSG then [evs[..MAX_NUM_OF_MSG]] else [])
  }

  /** One more sequence-diagram event keeps the description. */
  lemma IndexDataStep(st: IndexState, ts: seq<int>, evs: seq<SdEvent>, t: int, sd: SdEvent)
    requires IndexedSoFar(st, ts, evs)
    requires |ts| < INT_MAX
    ensures IndexedSoFar(IndexData(st, Observation(t, Some(sd))), ts + [t], evs + [sd])
  {
    var m := |ts|;
    var ts' := ts + [t];
    var evs' := evs + [sd];
    var st' := IndexData(st, Observation(t, Some(sd)));
    var M := MAX_NUM_OF_MSG;
    forall k | 0 <= k < |st.checkpoints|
      ensures BlockRange(ts, k) == BlockRange(ts', k)
    {
      assert (k + 1) * M <= m;
    }
    if (m + 1) % M == 0 {
      var k := m / M;
      assert (m + 1) / M == k + 1;
      assert m % M != 0;
      assert k * M < m;
      assert st'.checkpoints[k] == BlockRange(ts', k);
    } else {
      assert (m + 1) / M == m / M;
      if m % M == 0 {
        assert ((m + 1) / M) * M == m;
      } else {
        assert ((m + 1) / M) * M == (m / M) * M;
      }
    }
    if m + 1 <= M {
      assert evs'[..m + 1] == evs[..m] + [sd];
    } else {
      assert evs'[..M] == evs[..M];
    }
  }

  /**
   * From a fresh request, the state after any observations with at most
   * `INT_MAX` sequence-diagram events is the reference description over their
   * times and list.
   */
  lemma {:induction false} IndexAllDescribed(obs: seq<Observation>)
    requires |HitTimes(obs)| <= INT_MAX
    ensures IndexedSoFar(IndexAll(NewIndexState([]), obs), HitTimes(obs), HitEvents(obs))
    decreases |obs|
  {
    if |obs| > 0 {
      var init := obs[..|obs| - 1];
      IndexAllDescribed(init);
      var o := obs[|obs| - 1];
      if o.sd.Some? {
        IndexDataStep(IndexAll(NewIndexState([]), init), HitTimes(init), HitEvents(init), o.time, o.sd.value);
      }
    }
  }

  /** The state after success, in terms of the events' times and list. */
  ghost predicate IndexedAtSuccess(st: IndexState, ts: seq<int>, evs: seq<SdEvent>) {
    var n := |ts|;
    |evs| == n &&
    |st.checkpoints| == (n + MAX_NUM_OF_MSG - 1) / MAX_NUM_OF_MSG &&
    (forall k :: 0 <= k < |st.checkpoints| ==> k * MAX_NUM_OF_MSG < n && st.checkpoints[k] == BlockRange(ts, k)) &&
    st.sdEvents == evs[..Min(n, MAX_NUM_OF_MSG)] &&
    st.fills == (if n >= MAX_NUM_OF_MSG then [evs[..MAX_NUM_OF_MSG]] else [])
                + (if n <= MAX_NUM_OF_MSG then [evs[..n]] else [])
  }

  /** `handleSuccess` closes the last, partial block and fills the page when it is not full. */
  lemma SuccessStep(st: IndexState, ts: seq<int>, evs: seq<SdEvent>)
    requires IndexedSoFar(st, ts, evs)
    ensures IndexedAtSuccess(IndexSuccess(st), ts, evs)
  {
    var st' := IndexSuccess(st);
    var n := |ts|;
    var M := MAX_NUM_OF_MSG;
    if n % M != 0 {
      assert (n + M - 1) / M == n / M + 1;
      var k := n / M;
      assert k * M < n;
      assert st'.checkpoints[k] == BlockRange(ts, k);
    } else {
      assert (n + M - 1) / M == n / M;
    }
    forall k | 0 <= k < |st'.checkpoints|
      ensures k * MAX_NUM_OF_MSG < n
    {
      assert k <= (n - 1) / M;
    }
    if n <= M {
      assert evs[..n] == evs[..Min(n, M)];
    }
  }

  /**
   * After the whole trace and success, with `n` sequence-diagram events:
   * there are ceil(n / 10000) checkpoints, checkpoint `k` spans the first and
   * last time of the k-th block of 10000 events, the page buffer holds the
   * first min(n, 10000) events, and `fillCurrentPage` was called once from
   * `handleData` when the count reached 10000 and once from `handleSuccess`
   * when the count is at most 10000.
   */
  lemma IndexingResult(obs: seq<Observation>)
    requires |HitTimes(obs)| <= INT_MAX
    ensures IndexedAtSuccess(IndexSuccess(IndexAll(NewIndexState([]), obs)), HitTimes(obs), HitEvents(obs))
  {
    IndexAllDescribed(obs);
    SuccessStep(IndexAll(NewIndexState([]), obs), HitTimes(obs), HitEvents(obs));
  }

  /** Times that never decrease give checkpoints whose start is not after their end. */
  lemma CheckpointsAreOrdered(obs: seq<Observation>)
    requires |HitTimes(obs)| <= INT_MAX
    requires forall i, j :: 0 <= i <= j < |HitTimes(obs)| ==> HitTimes(obs)[i] <= HitTimes(obs)[j]
    ensures var st := IndexSuccess(IndexAll(NewIndexState([]), obs));
      forall k :: 0 <= k < |st.checkpoints| ==> st.checkpoints[k].start <= st.checkpoints[k].end
  {
    IndexingResult(obs);
  }

  // ---------------------------------------------------------------------------
  // The pass with the recogniser's exception
  // ---------------------------------------------------------------------------

  /** One trace event as the index request reads it: its time and the recogniser's full answer. */
  datatype Reading = Reading(time: int, answer: Recognised)

  /**
   * The outcome of the index pass: `handleSuccess` ran after the whole trace,
   * or the `NullPointerException` of event `at` ended the pass in `handleData`.
   */
  datatype PassOutcome = Succeeded(st: IndexState) | Aborted(st: IndexState, at: nat)

  /** The position of the first event whose recognition throws, or the length when none does. */
  function FirstThrow(trace: seq<Reading>): (k: nat)
    ensures k <= |trace|
    ensures forall i :: 0 <= i < k ==> !trace[i].answer.NullPointer?
    ensures k < |trace| ==> trace[k].answer.NullPointer?
    decreases |trace|
  {
    if |trace| == 0 then 0
    else if trace[0].answer.NullPointer? then 0
    else
      var k := FirstThrow(trace[1..]);
      assert forall i :: 1 <= i < 1 + k ==> trace[i] == trace[1..][i - 1];
      1 + k
  }

  /** The observation `handleData` acts on when recognition returns. */
  function Observe(r: Reading): Observation
    requires !r.answer.NullPointer?
  {
    Observation(r.time, if r.answer.IsSd? then Some(r.answer.sd) else None)
  }

  /** The observations of the first `k` readings, none of which throws. */
  function Observations(trace: seq<Reading>, k: nat): (obs: seq<Observation>)
    requires k <= |trace|
    requires forall i :: 0 <= i < k ==> !trace[i].answer.NullPointer?
    ensures |obs| == k
  {
    seq(k, i requires 0 <= i < k => Observe(trace[i]))
  }

  /**
   * The index pass over the trace: every event goes to `handleData` until one
   * throws; only a pass without an exception reaches `handleSuccess`.
   */
  function IndexPass(trace: seq<Reading>): PassOutcome {
    var k := FirstThrow(trace);
    var st := IndexAll(NewIndexState([]), Observations(trace, k));
    if k == |trace| then Succeeded(IndexSuccess(st)) else Aborted(st, k)
  }

  /**
   * The pass succeeds exactly when no recognition throws, and then holds the
   * full index description; otherwise it stops at the first throwing event
   * with the description of the events before it, neither closing the last
   * block nor filling the page from `handleSuccess`.
   */
  lemma IndexPassResult(trace: seq<Reading>)
    requires |HitTimes(Observations(trace, FirstThrow(trace)))| <= INT_MAX
    ensures IndexPass(trace).Succeeded? <==> forall i :: 0 <= i < |trace| ==> !trace[i].answer.NullPointer?
    ensures IndexPass(trace).Succeeded? ==>
              var obs := Observations(trace, |trace|);
              IndexedAtSuccess(IndexPass(trace).st, HitTimes(obs), HitEvents(obs))
    ensures IndexPass(trace).Aborted? ==>
              var k := IndexPass(trace).at;
              k < |trace| && trace[k].answer.NullPointer? &&
              (forall i :: 0 <= i < k ==> !trace[i].answer.NullPointer?) &&
              var obs := Observations(trace, k);
              IndexedSoFar(IndexPass(trace).st, HitTimes(obs), HitEvents(obs))
  {
    var k := FirstThrow(trace);
    var obs := Observations(trace, k);
    if k == |trace| {
      IndexingResult(obs);
    } else {
      IndexAllDescribed(obs);
    }
  }

  /**
   * Past `INT_MAX` sequence-diagram events the counter wraps to `INT_MIN`:
   * the event is then added to the page buffer again, and a pass ending there
   * fills the page a second time from `handleSuccess`.
   */
  lemma CounterWrapsAfterIntMax(st: IndexState, t: int, sd: SdEvent)
    requires st.nbSeqEvents == INT_MAX
    ensures IndexData(st, Observation(t, Some(sd))).nbSeqEvents == INT_MIN
    ensures IndexData(st, Observation(t, Some(sd))).sdEvents == st.sdEvents + [sd]
    ensures IndexSuccess(IndexData(st, Observation(t, Some(sd)))).fills
         == st.fills + [st.sdEvents + [sd]]
  {
  }
}

=== FILE: sd_page_fill.dfy ===
/**
 * Building the diagram of one page (`fillCurrentPage`): one lifeline per
 * sender or receiver that is not filtered, then one message per event that
 * is neither filtered itself nor between filtered lifelines, numbered by
 * occurrence.
 */
module SdPageFill {
  import opened JavaLang
  import opened SdEvents

  /** A message of the diagram: the event it shows and its occurrence number. */
  datatype Message = Message(event: SdEvent, occurrence: int)

  /** The diagram's content: lifeline names in creation order, and messages in order. */
  datatype Frame = Frame(lifelines: seq<string>, messages: seq<Message>)

  /** No name appears twice. */
  predicate Distinct(names: seq<string>) {
    forall a, b :: 0 <= a < b < |names| ==> names[a] != names[b]
  }

  /** `name` is the sender or receiver of one of `events`. */
  ghost predicate Mentioned(events: seq<SdEvent>, name: string) {
    exists j :: 0 <= j < |events| && (events[j].sender == name || events[j].receiver == name)
  }

  /** An event shows as a message: it is not filtered and neither of its lifelines is. */
  predicate Shown(sd: SdEvent, criteria: Option<seq<FilterCriteria>>, matches: (string, string) -> bool) {
    !FilterMessage(criteria, sd, matches) &&
    !FilterLifeLine(criteria, sd.sender, matches) &&
    !FilterLifeLine(criteria, sd.receiver, matches)
  }

  /** The events that show as messages, in order. */
  function ShownEvents(events: seq<SdEvent>, criteria: Option<seq<FilterCriteria>>,
                       matches: (string, string) -> bool): seq<SdEvent>
    decreases |events|
  {
    if |events| == 0 then []
    else
      var init := ShownEvents(events[..|events| - 1], criteria, matches);
      if Shown(events[|events| - 1], criteria, matches) then init + [events[|events| - 1]] else init
  }

  /** The messages for `shown`, numbered from 1. */
  function Numbered(shown: seq<SdEvent>): (ms: seq<Message>)
    ensures |ms| == |shown|
  {
    seq(|shown|, k requires 0 <= k < |shown| => Message(shown[k], k + 1))
  }

  lemma NumberedSnoc(shown: seq<SdEvent>, sd: SdEvent)
    ensures Numbered(shown + [sd]) == Numbered(shown) + [Message(sd, |shown| + 1)]
  {
  }

  /** Dropping the last event: the shown events of the rest, then the last one if it shows. */
  lemma ShownEventsStep(events: seq<SdEvent>, i: nat, criteria: Option<seq<FilterCriteria>>,
                        matches: (string, string) -> bool)
    requires i < |events|
    ensures ShownEvents(events[..i + 1], criteria, matches)
         == ShownEvents(events[..i], criteria, matches)
            + (if Shown(events[i], criteria, matches) then [events[i]] else [])
  {
    assert events[..i + 1][..i] == events[..i];
  }

  /**
   * The first loop of `fillCurrentPage`: a lifeline, with occurrence counter
   * 0, for each sender and receiver name not filtered, at its first mention.
   */
  method CreateLifelines(events: seq<SdEvent>, criteria: Option<seq<FilterCriteria>>,
                         matches: (string, string) -> bool)
    returns (lifelines: seq<string>, occurrences: map<string, int>)
    ensures Distinct(lifelines)
    ensures forall n :: n in occurrences <==> n in lifelines
    ensures forall n :: n in occurrences ==> occurrences[n] == 0
    ensures forall n :: n in lifelines <==> Mentioned(events, n) && !FilterLifeLine(criteria, n, matches)
  {
    occurrences := map[];
    lifelines := [];
    var i := 0;
    while i < |events|
      invariant 0 <= i <= |events|
      invariant Distinct(lifelines)
      invariant forall n :: n in occurrences <==> n in lifelines
      invariant forall n :: n in occurrences ==> occurrences[n] == 0
      invariant forall n :: n in lifelines <==> Mentioned(events[..i], n) && !FilterLifeLine(criteria, n, matches)
    {
      var sd := events[i];
      if sd.sender !in occurrences && !FilterLifeLine(criteria, sd.sender, matches) {
        occurrences := occurrences[sd.sender := 0];
        lifelines := lifelines + [sd.sender];
      }
      if sd.receiver !in occurrences && !FilterLifeLine(criteria, sd.receiver, matches) {
        occurrences := occurrences[sd.receiver := 0];
        lifelines := lifelines + [sd.receiver];
      }
      MentionedStep(events, i);
      i := i + 1;
    }
    assert events[..i] == events;
  }

  /** A name mentioned in the first `i + 1` events is mentioned in the first `i` or by event `i`. */
  lemma MentionedStep(events: seq<SdEvent>, i: nat)
    requires i < |events|
    ensures forall n :: Mentioned(events[..i + 1], n) <==>
              Mentioned(events[..i], n) || events[i].sender == n || events[i].receiver == n
  {
    forall n
      ensures Mentioned(events[..i + 1], n) <==>
                Mentioned(events[..i], n) || events[i].sender == n || events[i].receiver == n
    {
      if Mentioned(events[..i + 1], n) {
        var j :| 0 <= j < i + 1 && (events[..i + 1][j].sender == n || events[..i + 1][j].receiver == n);
        if j < i {
          assert events[..i][j] == events[..i + 1][j];
        }
      }
      if Mentioned(events[..i], n) {
        var j :| 0 <= j < i && (events[..i][j].sender == n || events[..i][j].receiver == n);
        assert events[..i + 1][j] == events[..i][j];
      }
      assert events[..i + 1][i] == events[i];
    }
  }

  /** With a lifeline for exactly the unfiltered names, the loop skips exactly the events not shown. */
  lemma SkippedIffNotShown(sd: SdEvent, lifelines: set<string>, criteria: Option<seq<FilterCriteria>>,
                           matches: (string, string) -> bool)
    requires sd.sender in lifelines <==> !FilterLifeLine(criteria, sd.sender, matches)
    requires sd.receiver in lifelines <==> !FilterLifeLine(criteria, sd.receiver, matches)
    ensures (FilterMessage(criteria, sd, matches) || sd.sender !in lifelines || sd.receiver !in lifelines)
            <==> !Shown(sd, criteria, matches)
  {
  }

  /** The second loop's variables: the lifelines' counters, the running counter, the messages. */
  datatype Numbering = Numbering(counters: map<string, int>, eventOccurrence: int, messages: seq<Message>)

  /**
   * What the second loop keeps: a counter for each lifeline, all below the
   * running counter, which is one past the number of messages; the messages
   * are the shown events so far, numbered from 1.
   */
  ghost predicate NumberingInv(st: Numbering, lifelines: set<string>, shown: seq<SdEvent>) {
    st.counters.Keys == lifelines &&
    (forall n :: n in st.counters ==> st.counters[n] < st.eventOccurrence) &&
    st.eventOccurrence == |st.messages| + 1 &&
    st.messages == Numbered(shown)
  }

  /**
   * One iteration of the second loop: an event that is not filtered and whose
   * two lifelines exist becomes a message. Its number is the larger of the
   * running counter and its lifelines' counters, which then both take that
   * number, and the running counter moves past it.
   */
  function NumberEvent(st: Numbering, sd: SdEvent, criteria: Option<seq<FilterCriteria>>,
                       matches: (string, string) -> bool): Numbering {
    if FilterMessage(criteria, sd, matches) || sd.sender !in st.counters || sd.receiver !in st.counters then st
    else
      var c := st.counters;
      var tmp := if c[sd.sender] >= c[sd.receiver] then c[sd.sender] else c[sd.receiver];
      var occurrence := if st.eventOccurrence >= tmp then st.eventOccurrence else tmp;
      Numbering(c[sd.sender := occurrence][sd.receiver := occurrence], occurrence + 1,
                st.messages + [Message(sd, occurrence)])
  }

  /** An iteration keeps the loop's description, with the event added when it shows. */
  lemma NumberEventKeeps(st: Numbering, sd: SdEvent, lifelines: set<string>, shown: seq<SdEvent>,
                         criteria: Option<seq<FilterCriteria>>, matches: (string, string) -> bool)
    requires NumberingInv(st, lifelines, shown)
    requires sd.sender in lifelines <==> !FilterLifeLine(criteria, sd.sender, matches)
    requires sd.receiver in lifelines <==> !FilterLifeLine(criteria, sd.receiver, matches)
    ensures NumberingInv(NumberEvent(st, sd, criteria, matches), lifelines,
                         shown + if Shown(sd, criteria, matches) then [sd] else [])
  {
    SkippedIffNotShown(sd, lifelines, criteria, matches);
    NumberedSnoc(shown, sd);
  }

  /**
   * The second loop of `fillCurrentPage`: the shown events become messages
   * numbered 1, 2, 3, ... in order, given lifelines (with counters at 0) for
   * exactly the names that are not filtered.
   */
  method NumberMessages(events: seq<SdEvent>, occurrences: map<string, int>,
                        criteria: Option<seq<FilterCriteria>>, matches: (string, string) -> bool)
    returns (messages: seq<Message>)
    requires forall n :: n in occurrences ==> occurrences[n] == 0
    requires forall j :: 0 <= j < |events| ==>
               (events[j].sender in occurrences <==> !FilterLifeLine(criteria, events[j].sender, matches)) &&
               (events[j].receiver in occurrences <==> !FilterLifeLine(criteria, events[j].receiver, matches))
    ensures messages == Numbered(ShownEvents(events, criteria, matches))
  {
    var st := Numbering(occurrences, 1, []);
    var i := 0;
    while i < |events|
      invariant 0 <= i <= |events|
      invariant NumberingInv(st, occurrences.Keys, ShownEvents(events[..i], criteria, matches))
    {
      ShownEventsStep(events, i, criteria, matches);
      NumberEventKeeps(st, events[i], occurrences.Keys, ShownEvents(events[..i], criteria, matches), criteria, matches);
      st := NumberEvent(st, events[i], criteria, matches);
      i := i + 1;
    }
    assert events[..i] == events;
    messages := st.messages;
  }

  /**
   * `fillCurrentPage`: the page's event list becomes a copy of `events`; when
   * there are events, the frame gets one lifeline per unfiltered name, at
   * most once each, and the shown events as messages numbered 1, 2, 3, ...
   */
  method FillCurrentPage(events: seq<SdEvent>, criteria: Option<seq<FilterCriteria>>,
                         matches: (string, string) -> bool)
    returns (page: seq<SdEvent>, frame: Frame)
    ensures page == events
    ensures Distinct(frame.lifelines)
    ensures forall n :: n in frame.lifelines <==> Mentioned(events, n) && !FilterLifeLine(criteria, n, matches)
    ensures |frame.messages| == |ShownEvents(events, criteria, matches)|
    ensures forall k :: 0 <= k < |frame.messages| ==>
              frame.messages[k] == Message(ShownEvents(events, criteria, matches)[k], k + 1)
  {
    page := events;
    if |events| == 0 {
      frame := Frame([], []);
      return;
    }
    var lifelines, occurrences := CreateLifelines(events, criteria, matches);
    forall j | 0 <= j < |events|
      ensures Mentioned(events, events[j].sender) && Mentioned(events, events[j].receiver)
    {
    }
    var messages := NumberMessages(events, occurrences, criteria, matches);
    frame := Frame(lifelines, messages);
  }
}

=== FILE: sd_paging.dfy ===
/**
 * Page navigation of the sequence-diagram loader: the current page over the
 * checkpoint list, the next/previous/first/last moves, jumping to a page
 * number, finding the page of a time, and the request that loads a page.
 */
module SdPaging {
  import opened JavaLang
  import opened SdIndexing

  /** The loader's paging fields: the checkpoints, the current page, the current time. */
  datatype Loader = Loader(checkpoints: seq<TimeRange>, currentPage: int, currentTime: Option<int>)

  /** The request `moveToPage` makes: a page request over a window, none, or an out-of-range `get`. */
  datatype PageRequest = Requested(window: TimeRange) | NotRequested | IndexOutOfBounds

  /** A paging operation's effect: the new loader state and the page request it issued. */
  datatype Step = Step(loader: Loader, request: PageRequest)

  /** `resetLoader`, for its paging fields: no checkpoints, page 0, no current time. */
  function ResetLoader(): (l: Loader)
    ensures PagesCount(l) == 0 && CurrentPage(l) == 0 && l.currentTime.None?
  {
    Loader([], 0, None)
  }

  function CurrentPage(l: Loader): int { l.currentPage }

  function PagesCount(l: Loader): nat { |l.checkpoints| }

  /**
   * The page numbers the operations below can leave behind: -1 (the last page
   * of an empty list), 0 (after a reset), or a page of the list.
   */
  predicate PageInRange(l: Loader) {
    -1 <= l.currentPage && (l.currentPage <= |l.checkpoints| - 1 || l.currentPage == 0)
  }

  /** `hasNextPage` */
  function HasNextPage(l: Loader): bool {
    var size := |l.checkpoints|;
    if size > 0 then l.currentPage < size - 1 else false
  }

  /** `hasPrevPage` */
  function HasPrevPage(l: Loader): bool {
    l.currentPage > 0
  }

  /**
   * The `moveToPage` guard as written: it returns only when the page is past
   * `size`, so page `size` and page -1 reach `get` out of range.
   */
  function MoveToPageAsWritten(l: Loader): (r: PageRequest)
    ensures r.IndexOutOfBounds? <==> l.currentPage < 0 || l.currentPage == |l.checkpoints|
  {
    if l.currentPage > |l.checkpoints| then NotRequested
    else if 0 <= l.currentPage < |l.checkpoints| then Requested(l.checkpoints[l.currentPage])
    else IndexOutOfBounds
  }

  /**
   * The guard as intended: a page request for the current page's checkpoint
   * when the page is in the list, and nothing otherwise.
   */
  function MoveToPage(l: Loader): (r: PageRequest)
    ensures !r.IndexOutOfBounds?
    ensures r.Requested? <==> 0 <= l.currentPage < |l.checkpoints|
    ensures r.Requested? ==> r.window == l.checkpoints[l.currentPage]
  {
    if l.currentPage < 0 || l.currentPage >= |l.checkpoints| then NotRequested
    else Requested(l.checkpoints[l.currentPage])
  }

  /** `nextPage`: the request goes through the guard as written. */
  function NextPage(l: Loader): (s: Step)
    ensures s.loader.checkpoints == l.checkpoints
    ensures s.loader.currentPage == l.currentPage || s.loader.currentPage == l.currentPage + 1
  {
    if l.currentPage >= |l.checkpoints| - 1 then Step(l, NotRequested)
    else
      var moved := l.(currentTime := None, currentPage := l.currentPage + 1);
      Step(moved, MoveToPageAsWritten(moved))
  }

  /** `prevPage`: the request goes through the guard as written. */
  function PrevPage(l: Loader): (s: Step)
    ensures s.loader.checkpoints == l.checkpoints
    ensures s.loader.currentPage == l.currentPage || s.loader.currentPage == l.currentPage - 1
  {
    if l.currentPage <= 0 then Step(l, NotRequested)
    else
      var moved := l.(currentTime := None, currentPage := l.currentPage - 1);
      Step(moved, MoveToPageAsWritten(moved))
  }

  /** `firstPage`: on a loader without checkpoints, `get(0)` throws. */
  function FirstPage(l: Loader): (s: Step)
    ensures s.loader.currentPage == 0 && s.loader.checkpoints == l.checkpoints && s.loader.currentTime.None?
    ensures |l.checkpoints| > 0 ==> s.request == Requested(l.checkpoints[0])
    ensures |l.checkpoints| == 0 ==> s.request == IndexOutOfBounds
  {
    var moved := l.(currentTime := None, currentPage := 0);
    Step(moved, MoveToPageAsWritten(moved))
  }

  /**
   * `lastPage`: the page is set to `size - 1`, which is -1 when there are no
   * checkpoints, and then `get(-1)` throws.
   */
  function LastPage(l: Loader): (s: Step)
    ensures s.loader.currentPage == |l.checkpoints| - 1
    ensures s.loader.checkpoints == l.checkpoints && s.loader.currentTime.None?
    ensures |l.checkpoints| > 0 ==> s.request == Requested(l.checkpoints[|l.checkpoints| - 1])
    ensures |l.checkpoints| == 0 ==> s.request == IndexOutOfBounds
  {
    var moved := l.(currentTime := None, currentPage := |l.checkpoints| - 1);
    Step(moved, MoveToPageAsWritten(moved))
  }

  /**
   * `pageNumberChanged`: the requested page, raised to 0, then lowered to
   * `size - 1`; with no checkpoints that is -1 and `get(-1)` throws.
   */
  function PageNumberChanged(l: Loader, pageNumber: int): (s: Step)
    ensures s.loader.checkpoints == l.checkpoints && s.loader.currentTime == l.currentTime
    ensures s.loader.currentPage <= |l.checkpoints| - 1 || |l.checkpoints| == 0
    ensures 0 <= pageNumber < |l.checkpoints| ==> s.loader.currentPage == pageNumber
    ensures |l.checkpoints| > 0 ==> 0 <= s.loader.currentPage < |l.checkpoints|
    ensures |l.checkpoints| > 0 ==> s.request == Requested(l.checkpoints[s.loader.currentPage])
    ensures |l.checkpoints| == 0 ==> s.request == IndexOutOfBounds
  {
    var p := if pageNumber < 0 then 0 else pageNumber;
    var p' := if p > |l.checkpoints| - 1 then |l.checkpoints| - 1 else p;
    var moved := l.(currentPage := p');
    Step(moved, MoveToPageAsWritten(moved))
  }

  /** `nextPage` moves forward exactly when `hasNextPage` says there is a next page. */
  lemma NextPageMovesIffHasNext(l: Loader)
    requires PageInRange(l)
    ensures NextPage(l).loader.currentPage == l.currentPage + 1 <==> HasNextPage(l)
    ensures !HasNextPage(l) ==> NextPage(l) == Step(l, NotRequested)
    ensures HasNextPage(l) ==> NextPage(l).request == Requested(l.checkpoints[l.currentPage + 1])
  {
  }

  /** `prevPage` moves back exactly when `hasPrevPage` says there is a previous page. */
  lemma PrevPageMovesIffHasPrev(l: Loader)
    ensures PrevPage(l).loader.currentPage == l.currentPage - 1 <==> HasPrevPage(l)
    ensures !HasPrevPage(l) ==> PrevPage(l) == Step(l, NotRequested)
    ensures HasPrevPage(l) && l.currentPage - 1 < |l.checkpoints| ==>
              PrevPage(l).request == Requested(l.checkpoints[l.currentPage - 1])
  {
  }

  /** `pageNumberChanged(p)` lands on min(max(p, 0), size - 1), which is -1 with no checkpoints. */
  lemma PageNumberChangedClamps(l: Loader, pageNumber: int)
    ensures PageNumberChanged(l, pageNumber).loader.currentPage
         == Min(if pageNumber < 0 then 0 else pageNumber, |l.checkpoints| - 1)
  {
  }

  /** Every paging operation keeps the page among the values `PageInRange` allows. */
  lemma PagingKeepsPageInRange(l: Loader, pageNumber: int)
    requires PageInRange(l)
    ensures PageInRange(NextPage(l).loader) && PageInRange(PrevPage(l).loader)
    ensures PageInRange(FirstPage(l).loader) && PageInRange(LastPage(l).loader)
    ensures PageInRange(PageNumberChanged(l, pageNumber).loader) && PageInRange(ResetLoader())
  {
  }

  /** More checkpoints from the ongoing indexing keep the page in range. */
  lemma CheckpointGrowthKeepsPageInRange(l: Loader, more: seq<TimeRange>)
    requires PageInRange(l)
    ensures PageInRange(l.(checkpoints := l.checkpoints + more))
  {
  }

  /**
   * The guard as written lets page 0 of an empty list and page -1 through:
   * after a reset, `firstPage` calls `get(0)` and `lastPage` calls `get(-1)`,
   * and both throw; the intended guard issues no request for either.
   */
  lemma MoveToPageGuardOffByOne()
    ensures FirstPage(ResetLoader()).request == IndexOutOfBounds
    ensures LastPage(ResetLoader()).loader.currentPage == -1
    ensures LastPage(ResetLoader()).request == IndexOutOfBounds
    ensures MoveToPage(FirstPage(ResetLoader()).loader) == NotRequested
    ensures MoveToPage(LastPage(ResetLoader()).loader) == NotRequested
  {
  }

  /**
   * The intended guard changes only the throwing cases: where the guard as
   * written reaches an out-of-range `get` it issues nothing, and otherwise it
   * issues the same request.
   */
  lemma MoveToPageCorrectsOnlyTheThrow(l: Loader)
    ensures MoveToPageAsWritten(l).IndexOutOfBounds? ==> MoveToPage(l) == NotRequested
    ensures !MoveToPageAsWritten(l).IndexOutOfBounds? ==> MoveToPage(l) == MoveToPageAsWritten(l)
  {
  }

  /** The first page whose checkpoint ends at or after `t`, if any, defined directly. */
  ghost predicate IsPageOf(cps: seq<TimeRange>, t: int, page: int) {
    if exists k :: 0 <= k < |cps| && cps[k].end >= t then
      0 <= page < |cps| && cps[page].end >= t && forall k :: 0 <= k < page ==> cps[k].end < t
    else page == |cps| - 1
  }

  /**
   * `getPage(t)`: the first page whose checkpoint ends at or after `t`;
   * otherwise the last page, or -1 when there are no checkpoints.
   */
  method GetPage(l: Loader, t: int) returns (page: int)
    ensures IsPageOf(l.checkpoints, t, page)
    ensures -1 <= page < |l.checkpoints|
  {
    var size := |l.checkpoints|;
    page := 0;
    while page < size
      invariant 0 <= page <= size
      invariant forall k :: 0 <= k < page ==> l.checkpoints[k].end < t
    {
      if l.checkpoints[page].end >= t {
        break;
      }
      page := page + 1;
    }
    if page >= size {
      page := size - 1;
    }
  }
}

=== FILE: system_call.dfy ===
/**
 * A finished system call as stored by the latency analysis: an interval with
 * a payload. The entry half (`InitialInfo`) is captured when the entry event
 * is seen; the exit event supplies the end time and the return value.
 */
module SystemCalls {
  import opened JavaLang

  /**
   * The entry half of a system call. `args` lists the entries of the argument
   * map in its iteration order. The source keeps an immutable copy of the map
   * it is given; here the sequence is a value, so later changes by the caller
   * cannot reach it.
   */
  datatype InitialInfo = InitialInfo(startTime: int, name: string, args: seq<(string, string)>)

  /** A complete system call; `duration` is computed once, at construction. */
  datatype SystemCall = SystemCall(info: InitialInfo, endTime: int, ret: int, duration: int)

  function GetStartTime(s: SystemCall): int { s.info.startTime }
  function GetEndTime(s: SystemCall): int { s.endTime }
  function GetDuration(s: SystemCall): int { s.duration }
  function GetName(s: SystemCall): string { s.info.name }
  function GetArguments(s: SystemCall): seq<(string, string)> { s.info.args }
  function GetReturnValue(s: SystemCall): int { s.ret }

  /**
   * The `SystemCall` constructor. It checks nothing about the order of the two
   * times; the duration is the `long` difference, with Java's wrap-around.
   */
  function NewSystemCall(info: InitialInfo, endTime: int, ret: int): (s: SystemCall)
    ensures GetStartTime(s) == info.startTime && GetName(s) == info.name && GetArguments(s) == info.args
    ensures GetEndTime(s) == endTime && GetReturnValue(s) == ret
    ensures IsLong(GetDuration(s)) && (GetDuration(s) - (GetEndTime(s) - GetStartTime(s))) % TWO_64 == 0
    ensures IsLong(endTime - info.startTime) ==> GetDuration(s) == GetEndTime(s) - GetStartTime(s)
    ensures IsLong(endTime - info.startTime) && endTime < info.startTime ==> GetDuration(s) < 0
  {
    SystemCall(info, endTime, ret, Wrap64(endTime - info.startTime))
  }

  /** An end time before the start time is accepted and gives a negative duration. */
  lemma NegativeDurationAccepted()
    ensures GetDuration(NewSystemCall(InitialInfo(10, "read", []), 4, 0)) == -6
  {
  }

  /** The rendering of the argument map: `{k1=v1, k2=v2}`. */
  function ArgsToString(args: seq<(string, string)>): string {
    "{" + Join(seq(|args|, i requires 0 <= i < |args| => args[i].0 + "=" + args[i].1), ", ") + "}"
  }

  /** The labelled parts of `toString`, in their fixed order. */
  function LabelledParts(s: SystemCall): seq<string> {
    [ "Start Time = " + IntToDecimal(GetStartTime(s)),
      "End Time = " + IntToDecimal(GetEndTime(s)),
      "Duration = " + IntToDecimal(GetDuration(s)),
      "Name = " + GetName(s),
      "Args = " + ArgsToString(GetArguments(s)),
      "Return = " + IntToDecimal(GetReturnValue(s)) ]
  }

  /** Six parts joined: the separator between each consecutive pair. */
  lemma JoinSix(p: seq<string>, sep: string)
    requires |p| == 6
    ensures Join(p, sep) == p[0] + sep + p[1] + sep + p[2] + sep + p[3] + sep + p[4] + sep + p[5]
  {
    assert Join(p[5..], sep) == p[5];
    assert Join(p[4..], sep) == p[4] + sep + p[5];
    assert Join(p[3..], sep) == p[3] + sep + Join(p[4..], sep);
    assert Join(p[2..], sep) == p[2] + sep + Join(p[3..], sep);
    assert Join(p[1..], sep) == p[1] + sep + Join(p[2..], sep);
  }

  /** `toString`: the six labelled parts, in order, separated by "; ". */
  function ToString(s: SystemCall): (r: string)
    ensures r == Join(LabelledParts(s), "; ")
  {
    var p := LabelledParts(s);
    JoinSix(p, "; ");
    p[0] + "; " + p[1] + "; " + p[2] + "; " + p[3] + "; " + p[4] + "; " + p[5]
  }
}

=== FILE: time_range_store.dfy ===
/**
 * The append-only interval store of the latency analysis (JDBMTimeRangeStore).
 *
 * The JDBM primary map is abstracted as a sequence indexed by insertion
 * position: the library assigns the record ids, and position `i` stands for
 * the id of the `i`-th appended value. The two secondary tree maps are keyed by
 * the start and end time of each value; the functions that extract those keys
 * are parameters (`startOf`, `endOf`) of the queries that use them. A durability
 * commit is recorded as a counter.
 */
module TimeRangeStore {
  import opened JavaLang

  /** Number of insertions between two durability commits. */
  const COMMIT_INTERVAL: nat := 10000

  /** The primary map (as a sequence), the element counter and the number of commits so far. */
  datatype Store<T> = Store(entries: seq<T>, nbEntries: nat, commits: nat)

  /** The counter matches the entries, and there has been one commit per full batch. */
  predicate Valid<T>(s: Store<T>) {
    s.nbEntries == |s.entries| && s.commits == s.nbEntries / COMMIT_INTERVAL
  }

  /** A freshly created store. */
  function NewStore<T>(): (s: Store<T>)
    ensures Valid(s)
    ensures GetNbElements(s) == 0 && s.commits == 0
  {
    Store([], 0, 0)
  }

  function GetNbElements<T>(s: Store<T>): nat {
    s.nbEntries
  }

  lemma CommitCountStep(n: nat)
    ensures (n + 1) / COMMIT_INTERVAL
            == n / COMMIT_INTERVAL + (if (n + 1) % COMMIT_INTERVAL == 0 then 1 else 0)
  {
  }

  /** `addValue`: append, bump the counter, and commit when the counter reaches a multiple of the batch size. */
  function AddValue<T>(s: Store<T>, v: T): (r: Store<T>)
    ensures GetNbElements(r) == GetNbElements(s) + 1
    ensures r.entries == s.entries + [v]
    ensures r.commits == s.commits + 1 <==> GetNbElements(r) % COMMIT_INTERVAL == 0
    ensures r.commits == s.commits || r.commits == s.commits + 1
    ensures Valid(s) ==> Valid(r)
  {
    var n := s.nbEntries + 1;
    CommitCountStep(s.nbEntries);
    Store(s.entries + [v], n, if n % COMMIT_INTERVAL == 0 then s.commits + 1 else s.commits)
  }

  /** Appending a whole sequence of values, one `addValue` at a time. */
  function AppendAll<T>(s: Store<T>, vs: seq<T>): Store<T>
    decreases |vs|
  {
    if |vs| == 0 then s else AddValue(AppendAll(s, vs[..|vs| - 1]), vs[|vs| - 1])
  }

  /** After n appends to a fresh store: n elements, in order, and n / 10000 commits. */
  lemma {:induction false} AppendAllFromEmpty<T>(vs: seq<T>)
    ensures Valid(AppendAll(NewStore<T>(), vs))
    ensures GetNbElements(AppendAll(NewStore<T>(), vs)) == |vs|
    ensures AppendAll(NewStore<T>(), vs).commits == |vs| / COMMIT_INTERVAL
    ensures AppendAll(NewStore<T>(), vs).entries == vs
    decreases |vs|
  {
    if |vs| > 0 {
      AppendAllFromEmpty(vs[..|vs| - 1]);
      assert vs[..|vs| - 1] + [vs[|vs| - 1]] == vs;
    }
  }

  /** `getElementAtIndex`: a primary-map lookup; `None` (null) for a key that is not present. */
  function GetElementAtIndex<T>(s: Store<T>, index: int): Option<T> {
    if 0 <= index < |s.entries| then Some(s.entries[index]) else None
  }

  /** An append keeps every earlier index and makes the new value reachable at the old count. */
  lemma AddValueKeepsIndices<T>(s: Store<T>, v: T, i: int)
    requires Valid(s)
    ensures GetElementAtIndex(AddValue(s, v), GetNbElements(s)) == Some(v)
    ensures i != GetNbElements(s) ==> GetElementAtIndex(AddValue(s, v), i) == GetElementAtIndex(s, i)
  {
  }

  /** With keys standing for insertion positions, index i holds the i-th appended value. */
  lemma {:induction false} ElementAtIndexAfterAppends<T>(vs: seq<T>, i: int)
    ensures GetElementAtIndex(AppendAll(NewStore<T>(), vs), i)
            == if 0 <= i < |vs| then Some(vs[i]) else None
  {
    AppendAllFromEmpty(vs);
  }

  /** `iterator()`: the values of the primary map in key order. */
  function Iterator<T>(s: Store<T>): (r: seq<T>)
    ensures |r| == |s.entries|
    ensures forall i :: 0 <= i < |r| ==> GetElementAtIndex(s, i) == Some(r[i])
  {
    s.entries
  }

  // ---------------------------------------------------------------------------
  // Ordered key sets
  // ---------------------------------------------------------------------------

  /** An ascending, duplicate-free key sequence: how a `TreeSet` or a tree map's key set iterates. */
  predicate StrictlyIncreasing(ks: seq<int>) {
    forall i, j :: 0 <= i < j < |ks| ==> ks[i] < ks[j]
  }

  lemma HeadIsLeast(ks: seq<int>)
    requires StrictlyIncreasing(ks) && |ks| > 0
    ensures forall k :: k in ks[1..] ==> ks[0] < k
  {
    forall k | k in ks[1..]
      ensures ks[0] < k
    {
      var i :| 0 <= i < |ks[1..]| && ks[1..][i] == k;
      assert ks[i + 1] == k;
    }
  }

  /** `TreeSet.add`: insert a key into an ascending key sequence. */
  function Insert(ks: seq<int>, k: int): (r: seq<int>)
    requires StrictlyIncreasing(ks)
    ensures StrictlyIncreasing(r)
    ensures forall x :: x in r <==> x in ks || x == k
    decreases |ks|
  {
    if |ks| == 0 then [k]
    else if k < ks[0] then
      HeadIsLeast(ks);
      ConsIncreasing(k, ks);
      [k] + ks
    else if k == ks[0] then ks
    else
      HeadIsLeast(ks);
      var rest := Insert(ks[1..], k);
      ConsIncreasing(ks[0], rest);
      [ks[0]] + rest
  }

  /** `TreeSet.addAll`: insert every key of `xs`. */
  function AddAll(ks: seq<int>, xs: seq<int>): (r: seq<int>)
    requires StrictlyIncreasing(ks)
    ensures StrictlyIncreasing(r)
    ensures forall x :: x in r <==> x in ks || x in xs
    decreases |xs|
  {
    if |xs| == 0 then ks
    else
      assert forall x :: x in xs <==> x == xs[0] || x in xs[1..];
      AddAll(Insert(ks, xs[0]), xs[1..])
  }

  /** Prepending a key below every key of an ascending sequence keeps it ascending. */
  lemma ConsIncreasing(x: int, rest: seq<int>)
    requires StrictlyIncreasing(rest)
    requires forall k :: k in rest ==> x < k
    ensures StrictlyIncreasing([x] + rest)
  {
    forall i, j | 0 <= i < j < |[x] + rest|
      ensures ([x] + rest)[i] < ([x] + rest)[j]
    {
      if i == 0 {
        assert ([x] + rest)[j] == rest[j - 1];
        assert rest[j - 1] in rest;
      }
    }
  }

  /** Appending a key above every key of an ascending sequence keeps it ascending. */
  lemma SnocIncreasing(init: seq<int>, x: int)
    requires StrictlyIncreasing(init)
    requires forall k :: k in init ==> k < x
    ensures StrictlyIncreasing(init + [x])
  {
    forall i, j | 0 <= i < j < |init + [x]|
      ensures (init + [x])[i] < (init + [x])[j]
    {
      if j == |init| {
        assert init[i] in init;
      }
    }
  }

  /** Two ascending sequences with the same elements are equal. */
  lemma {:induction false} SortedUnique(a: seq<int>, b: seq<int>)
    requires StrictlyIncreasing(a) && StrictlyIncreasing(b)
    requires forall k :: k in a <==> k in b
    ensures a == b
    decreases |a|
  {
    assert |a| > 0 ==> a[0] in a;
    assert |b| > 0 ==> b[0] in b;
    if |a| > 0 && |b| > 0 {
      HeadIsLeast(a);
      HeadIsLeast(b);
      assert a == [a[0]] + a[1..];
      assert b == [b[0]] + b[1..];
      assert a[0] == b[0] by {
        assert a[0] in b && b[0] in a;
        assert a[0] >= b[0];
        assert b[0] >= a[0];
      }
      forall k
        ensures k in a[1..] <==> k in b[1..]
      {
        assert k in a <==> k == a[0] || k in a[1..];
        assert k in b <==> k == b[0] || k in b[1..];
      }
      SortedUnique(a[1..], b[1..]);
    }
  }

  // ---------------------------------------------------------------------------
  // The query as written
  // ---------------------------------------------------------------------------

  /** The secondary key of every stored value, in insertion order. */
  function ExtractedKeys<T>(entries: seq<T>, key: T -> int): (ks: seq<int>)
    ensures |ks| == |entries|
    ensures forall i :: 0 <= i < |entries| ==> ks[i] == key(entries[i])
  {
    seq(|entries|, i requires 0 <= i < |entries| => key(entries[i]))
  }

  /** The key set of a secondary tree map: every extracted key once, ascending. */
  function SecondaryKeySet<T>(entries: seq<T>, key: T -> int): (ks: seq<int>)
    ensures StrictlyIncreasing(ks)
    ensures forall k :: k in ks <==> k in ExtractedKeys(entries, key)
  {
    AddAll([], ExtractedKeys(entries, key))
  }

  /** `tailMap(t).keySet()`: the keys at or after `t` (inclusive). */
  function TailMapKeys(ks: seq<int>, t: int): (r: seq<int>)
    requires StrictlyIncreasing(ks)
    ensures StrictlyIncreasing(r)
    ensures forall k :: k in r <==> k in ks && k >= t
    decreases |ks|
  {
    if |ks| == 0 then []
    else
      HeadIsLeast(ks);
      assert forall k :: k in ks <==> k == ks[0] || k in ks[1..];
      var rest := TailMapKeys(ks[1..], t);
      if ks[0] >= t then ConsIncreasing(ks[0], rest); [ks[0]] + rest else rest
  }

  /** `headMap(t).keySet()`: the keys strictly before `t` (exclusive). */
  function HeadMapKeys(ks: seq<int>, t: int): (r: seq<int>)
    requires StrictlyIncreasing(ks)
    ensures StrictlyIncreasing(r)
    ensures forall k :: k in r <==> k in ks && k < t
    decreases |ks|
  {
    if |ks| == 0 then []
    else
      HeadIsLeast(ks);
      assert forall k :: k in ks <==> k == ks[0] || k in ks[1..];
      var rest := HeadMapKeys(ks[1..], t);
      if ks[0] < t then ConsIncreasing(ks[0], rest); [ks[0]] + rest else rest
  }

  /** The helper named `intersection`: both sets are added to one fresh `TreeSet`. */
  function Intersection(set1: seq<int>, set2: seq<int>): seq<int>
    requires StrictlyIncreasing(set1) && StrictlyIncreasing(set2)
  {
    AddAll(AddAll([], set1), set2)
  }

  /** The helper returns the union, ascending; for disjoint non-empty sets that is not their intersection. */
  lemma IntersectionIsUnion(set1: seq<int>, set2: seq<int>)
    requires StrictlyIncreasing(set1) && StrictlyIncreasing(set2)
    ensures StrictlyIncreasing(Intersection(set1, set2))
    ensures forall k :: k in Intersection(set1, set2) <==> k in set1 || k in set2
    ensures |set1| > 0 && (forall k :: k in set1 ==> k !in set2) ==>
              exists k :: k in Intersection(set1, set2) && !(k in set1 && k in set2)
  {
    if |set1| > 0 && (forall k :: k in set1 ==> k !in set2) {
      assert set1[0] in Intersection(set1, set2) && set1[0] !in set2;
    }
  }

  /** The timestamps the query gathers: start times at or after `t` and end times before `t`, ascending. */
  function QueryKeys<T>(s: Store<T>, startOf: T -> int, endOf: T -> int, t: int): (ks: seq<int>)
    ensures StrictlyIncreasing(ks)
    ensures forall k :: k in ks <==>
              (k in ExtractedKeys(s.entries, startOf) && k >= t) || (k in ExtractedKeys(s.entries, endOf) && k < t)
  {
    Intersection(TailMapKeys(SecondaryKeySet(s.entries, startOf), t), HeadMapKeys(SecondaryKeySet(s.entries, endOf), t))
  }

  /**
   * `getIntersectingElements(t)` as written: every gathered timestamp is looked up
   * as a primary key; a timestamp that is not a record key yields `null`.
   */
  function GetIntersectingElements<T>(s: Store<T>, startOf: T -> int, endOf: T -> int, t: int)
    : (r: seq<Option<T>>)
    ensures |r| == |QueryKeys(s, startOf, endOf, t)|
    ensures forall j :: 0 <= j < |r| ==>
              var k := QueryKeys(s, startOf, endOf, t)[j];
              (r[j].Some? <==> 0 <= k < |s.entries|) && (r[j].Some? ==> r[j].value == s.entries[k])
  {
    var ks := QueryKeys(s, startOf, endOf, t);
    seq(|ks|, j requires 0 <= j < |ks| => GetElementAtIndex(s, ks[j]))
  }

  // ---------------------------------------------------------------------------
  // The intended query
  // ---------------------------------------------------------------------------

  /** The closed range of `e` contains `t`. */
  predicate Covers<T>(e: T, startOf: T -> int, endOf: T -> int, t: int) {
    startOf(e) <= t <= endOf(e)
  }

  /** Reference meaning of the query: the stored values whose range contains `t`, in insertion order. */
  function CoveringReference<T>(entries: seq<T>, startOf: T -> int, endOf: T -> int, t: int): seq<T>
    decreases |entries|
  {
    if |entries| == 0 then []
    else
      var last := entries[|entries| - 1];
      CoveringReference(entries[..|entries| - 1], startOf, endOf, t)
      + (if Covers(last, startOf, endOf, t) then [last] else [])
  }

  /** A value is in the reference result exactly when it is stored and covers `t`. */
  lemma {:induction false} CoveringReferenceMembers<T>(entries: seq<T>, startOf: T -> int, endOf: T -> int, t: int, e: T)
    ensures e in CoveringReference(entries, startOf, endOf, t) <==> e in entries && Covers(e, startOf, endOf, t)
    decreases |entries|
  {
    if |entries| > 0 {
      var init := entries[..|entries| - 1];
      CoveringReferenceMembers(init, startOf, endOf, t, e);
      assert entries == init + [entries[|entries| - 1]];
    }
  }

  /** The positions below `n` satisfying `p`, ascending. */
  function PositionsWhere(n: nat, p: int -> bool): (ps: seq<int>)
    ensures StrictlyIncreasing(ps)
    ensures forall i :: i in ps <==> 0 <= i < n && p(i)
  {
    if n == 0 then []
    else
      var init := PositionsWhere(n - 1, p);
      if p(n - 1) then SnocIncreasing(init, n - 1); init + [n - 1] else init
  }

  /** Positions of the values that have started by `t` (a prefix of the start-time order). */
  function StartedPositions<T>(s: Store<T>, startOf: T -> int, t: int): seq<int>
    ensures StrictlyIncreasing(StartedPositions(s, startOf, t))
  {
    PositionsWhere(|s.entries|, i => 0 <= i < |s.entries| && startOf(s.entries[i]) <= t)
  }

  /** Positions of the values that have not ended before `t` (a suffix of the end-time order). */
  function NotEndedPositions<T>(s: Store<T>, endOf: T -> int, t: int): seq<int>
    ensures StrictlyIncreasing(NotEndedPositions(s, endOf, t))
  {
    PositionsWhere(|s.entries|, i => 0 <= i < |s.entries| && endOf(s.entries[i]) >= t)
  }

  /** The merge-intersection of two ascending key sequences. */
  function SortedIntersect(a: seq<int>, b: seq<int>): (r: seq<int>)
    requires StrictlyIncreasing(a) && StrictlyIncreasing(b)
    ensures StrictlyIncreasing(r)
    ensures forall k :: k in r <==> k in a && k in b
    decreases |a| + |b|
  {
    if |a| == 0 || |b| == 0 then []
    else
      HeadIsLeast(a);
      HeadIsLeast(b);
      assert forall k :: k in a <==> k == a[0] || k in a[1..];
      assert forall k :: k in b <==> k == b[0] || k in b[1..];
      if a[0] == b[0] then
        var rest := SortedIntersect(a[1..], b[1..]);
        ConsIncreasing(a[0], rest);
        [a[0]] + rest
      else if a[0] < b[0] then SortedIntersect(a[1..], b)
      else SortedIntersect(a, b[1..])
  }

  /** Positions below `n` whose value covers `t`, ascending, built alongside the reference. */
  function MatchPositions<T>(entries: seq<T>, n: nat, startOf: T -> int, endOf: T -> int, t: int): (ps: seq<int>)
    requires n <= |entries|
    ensures StrictlyIncreasing(ps)
    ensures forall i :: i in ps <==> 0 <= i < n && Covers(entries[i], startOf, endOf, t)
    ensures forall j :: 0 <= j < |ps| ==> 0 <= ps[j] < n
    decreases n
  {
    if n == 0 then []
    else
      var init := MatchPositions(entries, n - 1, startOf, endOf, t);
      if Covers(entries[n - 1], startOf, endOf, t) then SnocIncreasing(init, n - 1); init + [n - 1] else init
  }

  lemma {:induction false} MatchPositionsLookup<T>(entries: seq<T>, n: nat, startOf: T -> int, endOf: T -> int, t: int)
    requires n <= |entries|
    ensures var ps := MatchPositions(entries, n, startOf, endOf, t);
            seq(|ps|, j requires 0 <= j < |ps| => entries[ps[j]])
            == CoveringReference(entries[..n], startOf, endOf, t)
    decreases n
  {
    if n > 0 {
      MatchPositionsLookup(entries, n - 1, startOf, endOf, t);
      assert entries[..n][..n - 1] == entries[..n - 1];
    }
  }

  /** The merged positions are exactly the positions of the covering values. */
  lemma MergedPositionsMatch<T>(s: Store<T>, startOf: T -> int, endOf: T -> int, t: int)
    ensures SortedIntersect(StartedPositions(s, startOf, t), NotEndedPositions(s, endOf, t))
            == MatchPositions(s.entries, |s.entries|, startOf, endOf, t)
  {
    var ps := SortedIntersect(StartedPositions(s, startOf, t), NotEndedPositions(s, endOf, t));
    var ms := MatchPositions(s.entries, |s.entries|, startOf, endOf, t);
    forall k
      ensures k in ps <==> k in ms
    {
    }
    SortedUnique(ps, ms);
  }

  /**
   * The query as its documentation describes it: the positions that have started
   * by `t`, intersected with those that have not ended before `t`, looked up in
   * ascending order.
   */
  function CoveringElements<T>(s: Store<T>, startOf: T -> int, endOf: T -> int, t: int): (r: seq<T>)
    ensures r == CoveringReference(s.entries, startOf, endOf, t)
  {
    var ps := SortedIntersect(StartedPositions(s, startOf, t), NotEndedPositions(s, endOf, t));
    MergedPositionsMatch(s, startOf, endOf, t);
    MatchPositionsLookup(s.entries, |s.entries|, startOf, endOf, t);
    assert s.entries[..|s.entries|] == s.entries;
    seq(|ps|, j requires 0 <= j < |ps| => s.entries[ps[j]])
  }

  /** The corrected query returns exactly the stored values whose range contains `t`. */
  lemma CoveringElementsMembers<T>(s: Store<T>, startOf: T -> int, endOf: T -> int, t: int, e: T)
    ensures e in CoveringElements(s, startOf, endOf, t) <==> e in s.entries && startOf(e) <= t <= endOf(e)
  {
    CoveringReferenceMembers(s.entries, startOf, endOf, t, e);
  }

  /** A store holding only [0, 5], queried at 3: the query as written returns nothing, the intended one returns the interval. */
  lemma QueryMissesCoveringInterval()
    ensures var s := AddValue(NewStore<(int, int)>(), (0, 5));
            && GetIntersectingElements(s, (p: (int, int)) => p.0, (p: (int, int)) => p.1, 3) == []
            && CoveringElements(s, (p: (int, int)) => p.0, (p: (int, int)) => p.1, 3) == [(0, 5)]
  {
    var s := AddValue(NewStore<(int, int)>(), (0, 5));
    var startOf := (p: (int, int)) => p.0;
    var endOf := (p: (int, int)) => p.1;
    assert ExtractedKeys(s.entries, startOf) == [0];
    assert ExtractedKeys(s.entries, endOf) == [5];
    SortedUnique(QueryKeys(s, startOf, endOf, 3), []);
    assert CoveringReference(s.entries, startOf, endOf, 3) == [(0, 5)];
  }
}

=== FILE: tmf_event.dfy ===
/**
 * The generic trace event: a plain value with seven fields, constructors that
 * default the rank to -1, a copy constructor, setters, and field-wise
 * `equals` / `hashCode`.
 */
module TmfEvents {
  import opened JavaLang

  /** A trace, compared by identity: `id` stands for the object reference. */
  datatype TraceRef = TraceRef(id: int)

  /** A timestamp: value, scale (a power of ten of a second) and precision. */
  datatype Timestamp = Timestamp(value: int, scale: int, precision: int)

  /** A field of the event content; a root field carries the fields below it. */
  datatype EventField = EventField(name: string, value: Option<string>, subfields: seq<EventField>)

  /** An event type: its context, its name and the root of its field layout. */
  datatype EventType = EventType(context: string, name: string, root: EventField)

  /** The seven attributes of an event; `None` stands for `null`. `rank` is a `long`. */
  datatype Event = Event(
    trace: Option<TraceRef>,
    rank: int,
    timestamp: Option<Timestamp>,
    source: Option<string>,
    eventType: Option<EventType>,
    content: Option<EventField>,
    reference: Option<string>)

  /** A Java object an event is compared with: `null`, or an instance of some class. */
  datatype Obj = Null | Instance(className: string, event: Event)

  /** The class name of `TmfEvent` itself, which subclasses do not share. */
  const EVENT_CLASS: string := "TmfEvent"

  /** The default constructor: rank -1, every reference `null`. */
  function DefaultEvent(): (e: Event)
    ensures e.rank == -1
    ensures e.trace.None? && e.timestamp.None? && e.source.None? && e.eventType.None?
    ensures e.content.None? && e.reference.None?
  {
    Event(None, -1, None, None, None, None, None)
  }

  /** The full constructor: stores its arguments. */
  function NewEvent(trace: Option<TraceRef>, rank: int, timestamp: Option<Timestamp>, source: Option<string>,
                    eventType: Option<EventType>, content: Option<EventField>, reference: Option<string>): (e: Event)
    ensures e.trace == trace && e.rank == rank && e.timestamp == timestamp && e.source == source
    ensures e.eventType == eventType && e.content == content && e.reference == reference
  {
    Event(trace, rank, timestamp, source, eventType, content, reference)
  }

  /** The constructor without a rank: rank -1, the other arguments stored. */
  function NewEventNoRank(trace: Option<TraceRef>, timestamp: Option<Timestamp>, source: Option<string>,
                          eventType: Option<EventType>, content: Option<EventField>, reference: Option<string>): (e: Event)
    ensures e.rank == -1
    ensures e.trace == trace && e.timestamp == timestamp && e.source == source
    ensures e.eventType == eventType && e.content == content && e.reference == reference
  {
    NewEvent(trace, -1, timestamp, source, eventType, content, reference)
  }

  /** The constructor without a rank or content: rank -1, content `null`. */
  function NewEventNoContent(trace: Option<TraceRef>, timestamp: Option<Timestamp>, source: Option<string>,
                             eventType: Option<EventType>, reference: Option<string>): (e: Event)
    ensures e.rank == -1 && e.content.None?
    ensures e.trace == trace && e.timestamp == timestamp && e.source == source
    ensures e.eventType == eventType && e.reference == reference
  {
    NewEvent(trace, -1, timestamp, source, eventType, None, reference)
  }

  /** The constructor without a rank, content or trace. */
  function NewEventNoTrace(timestamp: Option<Timestamp>, source: Option<string>,
                           eventType: Option<EventType>, reference: Option<string>): (e: Event)
    ensures e.rank == -1 && e.content.None? && e.trace.None?
    ensures e.timestamp == timestamp && e.source == source
    ensures e.eventType == eventType && e.reference == reference
  {
    NewEvent(None, -1, timestamp, source, eventType, None, reference)
  }

  /** The result of the copy constructor: the copy, or `IllegalArgumentException`. */
  datatype CopyResult = Copied(copy: Event) | IllegalArgument

  /**
   * The copy constructor, given `null` or an instance of `TmfEvent` or of a
   * subclass. The copy is a plain `TmfEvent` with the original's seven fields,
   * so it `equals` the original exactly when the original's class is `TmfEvent`.
   */
  function CopyEvent(original: Obj): (r: CopyResult)
    ensures original.Null? <==> r.IllegalArgument?
    ensures r.Copied? ==> Equals(r.copy, Instance(EVENT_CLASS, original.event), EVENT_CLASS)
    ensures r.Copied? ==> (Equals(r.copy, original, EVENT_CLASS) <==> original.className == EVENT_CLASS)
  {
    match original
    case Null => IllegalArgument
    case Instance(_, e) =>
      EqualsIsFieldwise(e, e);
      Copied(Event(e.trace, e.rank, e.timestamp, e.source, e.eventType, e.content, e.reference))
  }

  // Each setter replaces one field and keeps the six others.

  function SetSource(e: Event, source: Option<string>): (r: Event)
    ensures r.source == source && r.(source := e.source) == e
  {
    e.(source := source)
  }

  function SetTimestamp(e: Event, timestamp: Option<Timestamp>): (r: Event)
    ensures r.timestamp == timestamp && r.(timestamp := e.timestamp) == e
  {
    e.(timestamp := timestamp)
  }

  function SetType(e: Event, eventType: Option<EventType>): (r: Event)
    ensures r.eventType == eventType && r.(eventType := e.eventType) == e
  {
    e.(eventType := eventType)
  }

  function SetContent(e: Event, content: Option<EventField>): (r: Event)
    ensures r.content == content && r.(content := e.content) == e
  {
    e.(content := content)
  }

  function SetReference(e: Event, reference: Option<string>): (r: Event)
    ensures r.reference == reference && r.(reference := e.reference) == e
  {
    e.(reference := reference)
  }

  /** The null-safe comparison of one reference field: both `null`, or both set and equal. */
  predicate NullSafeEquals<T(==)>(a: Option<T>, b: Option<T>) {
    if a.None? then b.None? else b.Some? && a.value == b.value
  }

  /**
   * `equals`, called on an event of class `selfClass`: false for `null` and for
   * an object of another class, otherwise the fields compared one by one.
   */
  predicate Equals(self: Event, other: Obj, selfClass: string) {
    if other.Null? then false
    else if other.className != selfClass then false
    else
      var o := other.event;
      NullSafeEquals(self.trace, o.trace) && self.rank == o.rank &&
      NullSafeEquals(self.timestamp, o.timestamp) && NullSafeEquals(self.source, o.source) &&
      NullSafeEquals(self.eventType, o.eventType) && NullSafeEquals(self.content, o.content) &&
      NullSafeEquals(self.reference, o.reference)
  }

  /** Two events of the same class are `equals` exactly when all seven fields agree. */
  lemma EqualsIsFieldwise(a: Event, b: Event)
    ensures forall c :: Equals(a, Instance(c, b), c) <==> a == b
  {
  }

  /** `equals` is reflexive, and false against `null` or an object of another class. */
  lemma EqualsReflexiveAndClassStrict(a: Event, cls: string, other: Obj)
    ensures Equals(a, Instance(cls, a), cls)
    ensures !Equals(a, Null, cls)
    ensures other.Instance? && other.className != cls ==> !Equals(a, other, cls)
  {
  }

  /** One step of the hash: 31 times the running hash plus a field's hash, in `int` arithmetic. */
  function HashStep(acc: int, h: int): int {
    Wrap32(31 * acc + h)
  }

  /** A nullable field's hash: 0 for `null`. */
  function NullableHash<T>(x: Option<T>, hash: T -> int): int {
    if x.None? then 0 else hash(x.value)
  }

  /**
   * `hashCode`, starting from 1 and folding in the seven fields in order. The
   * hashes of the trace, timestamp, type and content objects are parameters;
   * strings use `String.hashCode` and the rank its `long` folding.
   */
  function HashCode(e: Event, traceHash: TraceRef -> int, timestampHash: Timestamp -> int,
                    typeHash: EventType -> int, contentHash: EventField -> int): (h: int)
    requires IsLong(e.rank)
    ensures IsInt(h)
  {
    var h0 := HashStep(1, NullableHash(e.trace, traceHash));
    var h1 := HashStep(h0, LongHash(e.rank));
    var h2 := HashStep(h1, NullableHash(e.timestamp, timestampHash));
    var h3 := HashStep(h2, NullableHash(e.source, StringHash));
    var h4 := HashStep(h3, NullableHash(e.eventType, typeHash));
    var h5 := HashStep(h4, NullableHash(e.content, contentHash));
    HashStep(h5, NullableHash(e.reference, StringHash))
  }

  /** Events that are `equals` have the same `hashCode`. */
  lemma EqualEventsHashAlike(a: Event, b: Event, cls: string, traceHash: TraceRef -> int,
                             timestampHash: Timestamp -> int, typeHash: EventType -> int,
                             contentHash: EventField -> int)
    requires IsLong(a.rank) && IsLong(b.rank)
    requires Equals(a, Instance(cls, b), cls)
    ensures HashCode(a, traceHash, timestampHash, typeHash, contentHash)
         == HashCode(b, traceHash, timestampHash, typeHash, contentHash)
  {
    EqualsIsFieldwise(a, b);
  }

  /** A copy made by the copy constructor has the same `hashCode` as the original, whatever its class. */
  lemma CopyHashesAlike(cls: string, e: Event, traceHash: TraceRef -> int, timestampHash: Timestamp -> int,
                        typeHash: EventType -> int, contentHash: EventField -> int)
    requires IsLong(e.rank)
    ensures CopyEvent(Instance(cls, e)).Copied?
    ensures HashCode(CopyEvent(Instance(cls, e)).copy, traceHash, timestampHash, typeHash, contentHash)
         == HashCode(e, traceHash, timestampHash, typeHash, contentHash)
  {
  }
}
